=== FILE: README.md ===
# SELECT * remediator for VBRK/VBRP — a Dafny model

The service receives ABAP source units and looks for every
`SELECT [SINGLE] * FROM <table> ... INTO ... .` statement in each one. For every
statement it reports the table, the target (an internal table, `itab`, or a
work area, `wa`) and the character span. When the table is VBRK or VBRP and
the statement does not already compare `<table>-DRAFT`, it also suggests
the statement with the filter `<table>-DRAFT = SPACE` added. It splices the
suggestions into the unit's text and then discards that text.

Besides a small `Option` type (wrappers.dfy), the model has five modules:

- `Text` (text.dfy): character classes `\w` and `\s`, ASCII upper case,
  case-insensitive keyword comparison, and longest-run scanners.
- `Locator` (locator.dfy): `SELECT_STAR_RE` as used by `finditer`.
  - `ValidParse` lists every way the pattern can match, with the position
    of each piece.
  - The backtracking order of Python's matcher is a priority order on
    parses: the longer table name first, then the earlier INTO, then
    `INTO TABLE` before `INTO`, then the longer target name, then the
    earlier period.
  - `Chosen` is the parse that comes first in that order. `ScanOf` is
    leftmost-first scanning that restarts after each match.
  - The scanner functions (`ScanHead`, `TryTarget`, `TryClause`,
    `FindClause`, `FindTable`, `MatchAt`, `FindAll`) are proved to compute
    exactly that.
- `Injector` (injector.dfy): `ensure_draft_filter` and
  `build_replacement_stmt`. It covers the search for an existing filter,
  the word-bounded `WHERE`/`INTO` searches, and the three ways of inserting
  the filter.
- `SpanEditor` (span_editor.dfy): `apply_span_replacements`. It sorts the
  edits by descending start with a stable sort, then splices right to left
  with Python's clamping slices. For edits that lie within the text and do
  not overlap or share a start, this is proved equal to a left-to-right
  weave of the original text.
- `Remediation` (remediation.dfy): the per-unit loop body of
  `remediate_array`. It builds the metadata for each statement, the list
  of replacements and the discarded rewrite.

Points where the code behaves in ways a reader may not expect:

- The lazy middle `.*?` may run past a period. A statement like
  `SELECT * FROM T.INTO W.` is therefore located, starting at its
  `SELECT` (`Locator.MiddleCrossesPeriod`).
- `SELECT` is not word-bounded: it is found inside `XSELECT`
  (`Locator.SelectNotWordBounded`).
- The statement text (`full`) does not include the terminating period. The
  suggested statement therefore has no trailing period, unless the third
  injection branch adds one.
- The third injection branch (neither `WHERE` nor `INTO` word-bounded) is
  reachable from a located statement. The regex's `INTO` need not be
  word-bounded, so `... XINTO W.` matches.
- The replacement edits cover the whole match, period included. Their text
  is a statement without that period, so the discarded rewrite drops the
  period after each statement changed by the first two branches
  (`Remediation.InternalRewrite` states the rewrite exactly).

## Model

| member | source | states |
|---|---|---|
| Text.UpperString | app/app.py:30 | the upper-cased name has the same length and, at each position, the ASCII upper case of the original character |
| Locator.ScanHead | app/app.py:11 | finds `SELECT \s+ (SINGLE \s+)? \* \s+ FROM \s+` at a position exactly when a valid head starts there; that head is the only one, so every `\s+` and the optional `SINGLE` are forced |
| Locator.HeadFromLongestRuns | app/app.py:11 | in any valid head, every blank run is the longest one and `SINGLE` is taken exactly when it is present and followed by blanks |
| Locator.TryTarget | app/app.py:13-14 | one INTO alternative at a position: returns a valid clause of that kind that comes first in backtracking order (longest name, then first period), or none exists |
| Locator.TryClause | app/app.py:13 | `INTO TABLE name` is tried before `INTO name`: the result comes first among all clauses at that position, or no clause starts there |
| Locator.FindClause | app/app.py:12-14 | the lazy middle: the clause at the earliest INTO position at or after `m`, first in backtracking order among all later clauses; none means no clause starts at or after `m` |
| Locator.FindTable | app/app.py:11-13 | the greedy table name: the split with the longest table name that still lets a clause follow, first in backtracking order among all splits; none means no split exists |
| Locator.MatchAt | app/app.py:10-16 | the match at a start position is the parse the backtracking matcher reaches first; none means no parse of the pattern starts there |
| Locator.FindAll | app/app.py:55 | `finditer` from a position satisfies the scan relation: leftmost match, restart at its end, nothing missed in between |
| Locator.ChosenUnique | app/app.py:10-16 | two parses chosen from the same start are the same parse |
| Locator.ScanOfUnique | app/app.py:55 | at most one list of matches satisfies the scan relation from a position, so the reported matches are determined by the text |
| Locator.FindSelectsIsTheScan | app/app.py:53-63 | any list of matches satisfying the scan relation from the start gives exactly the records `find_selects` returns |
| Locator.ItabIffIntoTable | app/app.py:59 | the reported target type is `itab` exactly when `INTO TABLE name` can match at the reported INTO position |
| Locator.ToRecord | app/app.py:56-62 | one match's record: the text, table and target name are the `full`, `table` and `into_tab`/`into_wa` group texts of the chosen parse, and the span is the whole match up to and including its period; the span starts at `SELECT` and holds the text followed by the period; the table and target names are non-empty runs of word characters; the kind is the alternative that matched |
| Locator.FindSelects | app/app.py:53-63 | one record per match; each span holds the record's text followed by the period; each text begins with `SELECT`; spans follow each other without overlap; a text with no `SELECT` gives no record |
| Locator.FirstMatchAt | app/app.py:55 | when a parse starts at `p` and no `SELECT` occurs before `p`, the first reported match starts at `p` |
| Locator.SelectNotWordBounded | app/app.py:11 | in `XSELECT * FROM T INTO W.` a match is reported, starting inside the word at offset 1 |
| Locator.MiddleCrossesPeriod | app/app.py:12 | in `SELECT * FROM T.INTO W.` a match is reported from offset 0, although the middle contains a period |
| Injector.FindFilter | app/app.py:34 | the filter search succeeds exactly when `<T>-DRAFT`, optional blanks and `=` occur at or after the search position, case-insensitively |
| Injector.FirstWordBounded | app/app.py:37-42 | `\bKW\b` search: the first position with the keyword, case-insensitive and with no word character on either side; none means no such position |
| Injector.StripTrailingDots | app/app.py:46 | `rstrip(".")` gives a prefix, drops only periods, and leaves no period at the end |
| Injector.EnsureDraftFilter | app/app.py:29-46 | tables other than VBRK/VBRP and statements that already compare `<T>-DRAFT` come back unchanged; otherwise the result compares `<T>-DRAFT` and differs from the input |
| Injector.InsertsAfterFirstWhere | app/app.py:37-40 | with a word-bounded `WHERE`, ` <T>-DRAFT = SPACE AND` goes right after the first one, and removing it gives back the statement |
| Injector.InsertsBeforeFirstInto | app/app.py:41-44 | with no `WHERE` but a word-bounded `INTO`, ` WHERE <T>-DRAFT = SPACE ` goes right before the first `INTO`, and removing it gives back the statement |
| Injector.AppendsWhereClause | app/app.py:45-46 | with neither keyword, the result is the statement without its trailing periods followed by ` WHERE <T>-DRAFT = SPACE.` |
| Injector.Idempotent | app/app.py:29-46 | applying the injector to its own result changes nothing |
| Injector.BuildReplacement | app/app.py:48-51 | the statement comes back unchanged exactly when its table is not governed or it already has the filter; for VBRK/VBRP the result always has the filter |
| SpanEditor.SortByStartDesc | app/app.py:67 | the sorted list is a permutation of the edits, on descending start |
| SpanEditor.SortKeepsSortedOrder | app/app.py:67 | a list already on descending start, ties included, comes back as it is |
| SpanEditor.SortStable | app/app.py:67 | the sort is stable: for every start, the edits with that start come out in the order the caller listed them |
| SpanEditor.ApplySpanReplacements | app/app.py:65-69 | the editor itself; with no edits the source comes back unchanged (the lemmas below state the rest) |
| SpanEditor.ApplyInOrderIsWeave | app/app.py:67-68 | for a descending chain (in-bounds edits that do not overlap, on strictly descending starts), splicing right to left into the text being edited equals weaving the reversed list left to right into the original text |
| SpanEditor.ApplyIsLeftToRightSplice | app/app.py:65-69 | for in-bounds edits that neither overlap nor share a start (the caller's spans are never empty, so they never share a start), the result is the original text with each edit's text in place of its span, read left to right over the same edits |
| SpanEditor.ApplyLength | app/app.py:65-69 | for in-bounds edits that neither overlap nor share a start (the caller's spans are never empty, so they never share a start), the result's length is the source's length plus each edit's change in length |
| SpanEditor.OrderIndependent | app/app.py:65-69 | for in-bounds edits that neither overlap nor share a start (the caller's spans are never empty, so they never share a start), the order in which the caller lists them does not change the result |
| SpanEditor.DescendingUnique | app/app.py:67 | a list with strictly descending starts is the only list on descending starts holding the same edits |
| SpanEditor.AscendingEditsWoven | app/app.py:65-69 | edits listed left to right with increasing starts are woven in exactly that order |
| Remediation.SourceOf | app/app.py:80 | the unit's code when present, the empty text when it is missing |
| Remediation.Entries | app/app.py:85-103 | one entry per located statement, in order, each the statement's description |
| Remediation.Describe | app/app.py:86-102 | the metadata copies the table, target and span, labels the target `itab` or `wa`, and fills the fixed placeholder fields |
| Remediation.DescribeSuggests | app/app.py:97-102 | a suggestion is present exactly when the table is VBRK/VBRP and the statement lacks the filter; it is then the injector's result and has the filter |
| Remediation.Replacements | app/app.py:82-101 | no more replacements than entries, and none exactly when no entry has a suggestion |
| Remediation.ReplacementsAreSuggestions | app/app.py:98-102 | every replacement is the suggestion of one entry over that entry's span, and every suggestion has its replacement |
| Remediation.ReplacementsAscending | app/app.py:85-103 | when the entries' spans are non-empty, ordered left to right without overlap, and all end within the text, the replacements are in bounds, do not overlap, and have strictly increasing starts |
| Remediation.ProcessUnit | app/app.py:79-110 | the unit is echoed back with one entry per located statement, in order; entry `i` carries the table, the `itab`/`wa` label of the target kind, the target name and the span of the `i`-th located statement, and the fixed placeholder fields |
| Remediation.MissingCodeHasNoSelects | app/app.py:80-81 | a unit without code is read as the empty text and reports no statement |
| Remediation.ProcessUnitSpans | app/app.py:80-91 | each entry's span starts with `SELECT`, ends with the period, and lies within the unit's text; spans do not overlap |
| Remediation.ProcessUnitSuggests | app/app.py:97-102 | each entry's suggestion, read against the statement in its span, is present exactly when the table is VBRK/VBRP without the filter, and is then the injector's result |
| Remediation.InternalRewrite | app/app.py:105-106 | the discarded rewrite puts each suggestion in place of its whole span, period included, reading left to right; its length changes by the edits' net change |
| Remediation.RemediateArray | app/app.py:76-112 | one result per posted unit, in order, each the processing of that unit |

## Left out

- The web layer is not modelled. This covers FastAPI, the route decorator, and the request and response encoding.
- pydantic validation is not modelled: units are taken as already well-typed.
- `json.loads(u.model_dump_json())` is modelled as echoing the unit unchanged. The JSON field names are not modelled.
- `concat_units` (app/app.py:71-72) is not modelled: the endpoint never calls it.
- Unicode is not modelled; `\w`, `\s`, `\b` and `re.IGNORECASE` are read in their ASCII sense. `\w` is ASCII letters, digits and `_`. `\s` is blank, tab, line feed, carriage return, vertical tab and form feed. Python's default `\s` also matches the ASCII separators `\x1c`–`\x1f`, and also `\x85`, `\xa0` and other Unicode blanks; the model treats these as ordinary characters. Python's Unicode matching also counts non-ASCII letters and digits as word characters. It also folds a few non-ASCII characters onto ASCII letters, such as the Kelvin sign onto `K`.
- The optional quotes and blank after `=` in the filter pattern are left out: they never decide whether the filter is found.
- Python's negative slice indices are not modelled. Spans come from `finditer` and are never negative; past-the-end slices do clamp, as in Python.
- Injector.EnsureDraftFilter: does not state that the result holds exactly one `<T>-DRAFT = SPACE`. It states that the result compares `<T>-DRAFT`; the lemmas `InsertsAfterFirstWhere`, `InsertsBeforeFirstInto` and `AppendsWhereClause` state where the filter goes in each branch. (The result can hold other occurrences of `<T>-DRAFT`: `VBRK-DRAFT IS INITIAL` has no `=`, so it is kept and a filter is added.)
- SpanEditor.ApplySpanReplacements: its own contract covers only the empty edit list. The properties for in-bounds edits that neither overlap nor share a start (the only kind the caller builds, since its spans are never empty) are in the lemmas above. Overlapping edits, or edits sharing a start, are computed, but nothing is stated about them.
- Remediation.RemediateArray: does not state that results of concatenated unit lists concatenate. This follows from the per-unit contract.

=== FILE: injector.dfy ===
/** The filter injector: `ensure_draft_filter` and `build_replacement_stmt`.
    For the two governed tables it adds `<T>-DRAFT = SPACE` to a statement
    that does not already compare `<T>-DRAFT`, at the first place that fits:
    right after `WHERE`, before `INTO`, or as a new WHERE clause at the end. */
module Injector {
  import opened Wrappers
  import opened Text

  /** The upper-cased table name is one of the two governed tables. */
  predicate Governed(tableUp: string) {
    tableUp == "VBRK" || tableUp == "VBRP"
  }

  /** The column compared by the filter, `<T>-DRAFT`. */
  function DraftColumn(tableUp: string): string {
    tableUp + "-DRAFT"
  }

  // ---------------------------------------------------------------- existing filter

  /** `<T>-DRAFT \s* =` at `i`, case-insensitive, with the `=` at `eq`. The
      quote and blank that may follow `=` are optional in the searched
      pattern, so they never decide whether it is found. */
  predicate FilterAt(s: string, tableUp: string, i: nat, eq: nat) {
    var col := DraftColumn(tableUp);
    && KeywordAt(s, i, col)
    && i + |col| <= eq < |s|
    && (forall k :: i + |col| <= k < eq ==> IsSpace(s[k]))
    && s[eq] == '='
  }

  /** The statement already compares `<T>-DRAFT` with something. */
  ghost predicate HasFilter(s: string, tableUp: string) {
    exists i: nat, eq: nat :: FilterAt(s, tableUp, i, eq)
  }

  /** The search for the filter pattern at one position: the blanks before `=`
      are taken as a longest run. */
  predicate FilterStartsAt(s: string, tableUp: string, i: nat)
    requires i <= |s|
  {
    var col := DraftColumn(tableUp);
    KeywordAt(s, i, col) && (var eq := SkipSpaces(s, i + |col|); eq < |s| && s[eq] == '=')
  }

  /** `re.search` for the filter pattern from position `i` on. */
  function FindFilter(s: string, tableUp: string, i: nat): (found: bool)
    requires i <= |s|
    ensures found <==> exists j: nat, eq: nat :: i <= j && FilterAt(s, tableUp, j, eq)
    decreases |s| - i
  {
    if i == |s| then
      NoFilterAtEnd(s, tableUp, i);
      false
    else if FilterStartsAt(s, tableUp, i) then
      assert FilterAt(s, tableUp, i, SkipSpaces(s, i + |DraftColumn(tableUp)|));
      true
    else
      var found := FindFilter(s, tableUp, i + 1);
      NoFilterStartsAt(s, tableUp, i);
      found
  }

  lemma NoFilterAtEnd(s: string, tableUp: string, i: nat)
    requires i == |s|
    ensures !exists j: nat, eq: nat :: i <= j && FilterAt(s, tableUp, j, eq)
  {
  }

  /** A filter at `i` is found by the longest-run test. */
  lemma NoFilterStartsAt(s: string, tableUp: string, i: nat)
    requires i < |s| && !FilterStartsAt(s, tableUp, i)
    ensures forall eq: nat :: !FilterAt(s, tableUp, i, eq)
  {
  }

  // ---------------------------------------------------------------- keywords

  /** `\bKW\b` at `i`: the keyword, case-insensitive, with no word character
      just before or just after it. */
  predicate WordBoundedAt(s: string, i: nat, kw: string) {
    && KeywordAt(s, i, kw)
    && (i == 0 || !IsWordChar(s[i - 1]))
    && (i + |kw| == |s| || !IsWordChar(s[i + |kw|]))
  }

  /** `i` is the first position where the word-bounded keyword occurs. */
  predicate FirstWordBoundedAt(s: string, i: nat, kw: string) {
    WordBoundedAt(s, i, kw) && forall k :: 0 <= k < i ==> !WordBoundedAt(s, k, kw)
  }

  /** `re.search(r"\bKW\b", s, re.IGNORECASE)` from position `i` on. */
  function FirstWordBounded(s: string, kw: string, i: nat): (r: Option<nat>)
    requires i <= |s| && |kw| > 0
    ensures r.Some? ==> i <= r.value && WordBoundedAt(s, r.value, kw)
    ensures r.Some? ==> forall k :: i <= k < r.value ==> !WordBoundedAt(s, k, kw)
    ensures r.None? ==> forall k: nat :: i <= k ==> !WordBoundedAt(s, k, kw)
    decreases |s| - i
  {
    if i == |s| then None
    else if WordBoundedAt(s, i, kw) then Some(i)
    else FirstWordBounded(s, kw, i + 1)
  }

  // ---------------------------------------------------------------- injection

  /** Inserted after `WHERE`: the filter becomes the first conjunct. */
  function AfterWhere(tableUp: string): string {
    " " + DraftColumn(tableUp) + " = SPACE AND"
  }

  /** Inserted before `INTO`: a new WHERE clause. */
  function BeforeInto(tableUp: string): string {
    " WHERE " + DraftColumn(tableUp) + " = SPACE "
  }

  /** Appended when the statement has neither `WHERE` nor `INTO`. */
  function AppendedWhere(tableUp: string): string {
    " WHERE " + DraftColumn(tableUp) + " = SPACE."
  }

  /** `str.rstrip(".")`: the statement without its trailing periods. */
  function StripTrailingDots(s: string): (r: string)
    ensures |r| <= |s| && r == s[..|r|]
    ensures forall k :: |r| <= k < |s| ==> s[k] == '.'
    ensures r == [] || r[|r| - 1] != '.'
  {
    if s != [] && s[|s| - 1] == '.' then StripTrailingDots(s[..|s| - 1]) else s
  }

  /** `ensure_draft_filter`. A statement on any other table, or one that
      already compares `<T>-DRAFT`, comes back unchanged; otherwise the result
      carries the filter and so differs from the input. */
  function EnsureDraftFilter(stmt: string, table: string): (r: string)
    ensures !Governed(UpperString(table)) ==> r == stmt
    ensures Governed(UpperString(table)) && HasFilter(stmt, UpperString(table)) ==> r == stmt
    ensures Governed(UpperString(table)) && !HasFilter(stmt, UpperString(table)) ==>
      HasFilter(r, UpperString(table)) && r != stmt
  {
    var t := UpperString(table);
    if !Governed(t) then stmt
    else if FindFilter(stmt, t, 0) then stmt
    else
      match FirstWordBounded(stmt, "WHERE", 0)
      case Some(w) =>
        var r := stmt[..w + 5] + AfterWhere(t) + stmt[w + 5..];
        FilterInserted(stmt[..w + 5], AfterWhere(t), stmt[w + 5..], t, 1);
        r
      case None =>
        match FirstWordBounded(stmt, "INTO", 0)
        case Some(k) =>
          var r := stmt[..k] + BeforeInto(t) + stmt[k..];
          FilterInserted(stmt[..k], BeforeInto(t), stmt[k..], t, 7);
          r
        case None =>
          var r := StripTrailingDots(stmt) + AppendedWhere(t);
          FilterInserted(StripTrailingDots(stmt), AppendedWhere(t), [], t, 7);
          assert r == StripTrailingDots(stmt) + AppendedWhere(t) + [];
          r
  }

  /** The draft column of a governed table is already upper case. */
  lemma DraftColumnUpper(tableUp: string)
    requires Governed(tableUp)
    ensures forall k :: 0 <= k < |DraftColumn(tableUp)| ==> Upper(DraftColumn(tableUp)[k]) == DraftColumn(tableUp)[k]
  {
  }

  /** Text that holds `<T>-DRAFT =` at offset `off`, placed anywhere, makes
      the filter pattern match. */
  lemma FilterInserted(pre: string, ins: string, post: string, tableUp: string, off: nat)
    requires Governed(tableUp)
    requires off + |DraftColumn(tableUp)| + 2 <= |ins|
    requires ins[off .. off + |DraftColumn(tableUp)|] == DraftColumn(tableUp)
    requires ins[off + |DraftColumn(tableUp)|] == ' ' && ins[off + |DraftColumn(tableUp)| + 1] == '='
    ensures HasFilter(pre + ins + post, tableUp)
  {
    var s := pre + ins + post;
    var col := DraftColumn(tableUp);
    var i := |pre| + off;
    DraftColumnUpper(tableUp);
    assert forall k :: 0 <= k < |col| ==> s[i + k] == ins[off + k] == col[k];
    assert FilterAt(s, tableUp, i, i + |col| + 1);
  }

  // ---------------------------------------------------------------- properties

  lemma FirstWordBoundedIs(s: string, kw: string, w: nat)
    requires |kw| > 0 && FirstWordBoundedAt(s, w, kw)
    ensures FirstWordBounded(s, kw, 0) == Some(w)
  {
    var r := FirstWordBounded(s, kw, 0);
    if r.Some? {
      assert !(r.value < w);
      assert !(w < r.value);
    }
  }

  lemma FirstWordBoundedNone(s: string, kw: string)
    requires |kw| > 0 && forall j: nat :: !WordBoundedAt(s, j, kw)
    ensures FirstWordBounded(s, kw, 0) == None
  {
  }

  /** Deleting what was inserted gives back the original text. */
  lemma InsertionUndone(a: string, ins: string, b: string)
    ensures var r := a + ins + b; r[..|a|] + r[|a| + |ins|..] == a + b
  {
    var r := a + ins + b;
    assert r[..|a|] == a;
    assert r[|a| + |ins|..] == b;
  }

  /** With a word-bounded `WHERE`, the filter is inserted right after the
      first one; deleting the inserted text gives back the statement. */
  lemma InsertsAfterFirstWhere(stmt: string, table: string, w: nat)
    requires Governed(UpperString(table)) && !HasFilter(stmt, UpperString(table))
    requires FirstWordBoundedAt(stmt, w, "WHERE")
    ensures var t := UpperString(table); var r := EnsureDraftFilter(stmt, table);
      && r == stmt[..w + 5] + AfterWhere(t) + stmt[w + 5..]
      && r[..w + 5] + r[w + 5 + |AfterWhere(t)|..] == stmt
  {
    var t := UpperString(table);
    assert !FindFilter(stmt, t, 0);
    FirstWordBoundedIs(stmt, "WHERE", w);
    InsertionUndone(stmt[..w + 5], AfterWhere(t), stmt[w + 5..]);
    assert stmt[..w + 5] + stmt[w + 5..] == stmt;
  }

  /** With no word-bounded `WHERE` but a word-bounded `INTO`, a WHERE clause
      holding the filter is inserted right before the first `INTO`; deleting
      it gives back the statement. */
  lemma InsertsBeforeFirstInto(stmt: string, table: string, k: nat)
    requires Governed(UpperString(table)) && !HasFilter(stmt, UpperString(table))
    requires forall j: nat :: !WordBoundedAt(stmt, j, "WHERE")
    requires FirstWordBoundedAt(stmt, k, "INTO")
    ensures var t := UpperString(table); var r := EnsureDraftFilter(stmt, table);
      && r == stmt[..k] + BeforeInto(t) + stmt[k..]
      && r[..k] + r[k + |BeforeInto(t)|..] == stmt
  {
    var t := UpperString(table);
    assert !FindFilter(stmt, t, 0);
    FirstWordBoundedNone(stmt, "WHERE");
    FirstWordBoundedIs(stmt, "INTO", k);
    InsertionUndone(stmt[..k], BeforeInto(t), stmt[k..]);
    assert stmt[..k] + stmt[k..] == stmt;
  }

  /** With neither keyword, the trailing periods are dropped and a WHERE
      clause ending in a period is appended: the statement is the text before
      that clause followed only by periods. */
  lemma AppendsWhereClause(stmt: string, table: string)
    requires Governed(UpperString(table)) && !HasFilter(stmt, UpperString(table))
    requires forall j: nat :: !WordBoundedAt(stmt, j, "WHERE")
    requires forall j: nat :: !WordBoundedAt(stmt, j, "INTO")
    ensures var t := UpperString(table); var r := EnsureDraftFilter(stmt, table);
      && |AppendedWhere(t)| <= |r|
      && var base := r[..|r| - |AppendedWhere(t)|];
      && r == base + AppendedWhere(t)
      && base == stmt[..|base|]
      && (forall j :: |base| <= j < |stmt| ==> stmt[j] == '.')
      && (base == [] || base[|base| - 1] != '.')
  {
    var t := UpperString(table);
    assert !FindFilter(stmt, t, 0);
    FirstWordBoundedNone(stmt, "WHERE");
    FirstWordBoundedNone(stmt, "INTO");
    var base := StripTrailingDots(stmt);
    var r := base + AppendedWhere(t);
    assert EnsureDraftFilter(stmt, table) == r;
    assert r[..|r| - |AppendedWhere(t)|] == base;
  }

  /** Applying the injector a second time changes nothing: every injected
      form compares `<T>-DRAFT`, which the first test detects. */
  lemma Idempotent(stmt: string, table: string)
    ensures EnsureDraftFilter(EnsureDraftFilter(stmt, table), table) == EnsureDraftFilter(stmt, table)
  {
  }

  /** `build_replacement_stmt`: the target kind and name play no part. The
      statement comes back unchanged exactly when its table is not governed
      or it already compares `<T>-DRAFT`; for a governed table the result
      always carries the filter. */
  function BuildReplacement(text: string, table: string, targetType: string, targetName: string): (r: string)
    ensures r == text <==> !Governed(UpperString(table)) || HasFilter(text, UpperString(table))
    ensures Governed(UpperString(table)) ==> HasFilter(r, UpperString(table))
  {
    EnsureDraftFilter(text, table)
  }
}

=== FILE: locator.dfy ===
/** The statement locator: `SELECT_STAR_RE` scanned with `finditer`.

    The pattern, case-insensitive and with `.` matching line breaks, is
      SELECT \s+ (SINGLE \s+)? \* \s+ FROM \s+ (\w+)      -- the head and the table
      .*?                                                -- the lazy middle
      (INTO \s+ TABLE \s+ (\w+) | INTO \s+ (\w+))         -- the INTO clause
      .*? \.                                             -- the lazy tail and the period
    `ValidParse` describes every way the pattern can match, with the position
    of each piece; `MatchAt` picks the parse a backtracking matcher reaches
    first, and `FindAll` restarts after each match as `finditer` does. */
module Locator {
  import opened Wrappers
  import opened Text

  /** `into_tab` (an internal table) or `into_wa` (a work area) matched. */
  datatype TargetKind = Itab | Wa

  /** Positions of `SELECT`, the blanks, the optional `SINGLE`, `*`, `FROM`
      and the first character of the table name. */
  datatype Head = Head(start: nat, afterSelect: nat, single: bool, star: nat, fromAt: nat, tableStart: nat)

  /** Positions of the INTO clause, the target name and the terminating period. */
  datatype Clause = Clause(intoAt: nat, afterInto: nat, kind: TargetKind, nameStart: nat, nameEnd: nat, dot: nat)

  /** Where the table name ends, and the INTO clause after the middle. */
  datatype Split = Split(tableEnd: nat, clause: Clause)

  datatype Parse = Parse(head: Head, split: Split)

  predicate HeadValid(s: string, h: Head) {
    && KeywordAt(s, h.start, "SELECT")
    && SpaceRun(s, h.start + 6, h.afterSelect)
    && (if h.single
        then KeywordAt(s, h.afterSelect, "SINGLE") && SpaceRun(s, h.afterSelect + 6, h.star)
        else h.star == h.afterSelect)
    && h.star < |s| && s[h.star] == '*'
    && SpaceRun(s, h.star + 1, h.fromAt)
    && KeywordAt(s, h.fromAt, "FROM")
    && SpaceRun(s, h.fromAt + 4, h.tableStart)
    && h.tableStart < |s| && IsWordChar(s[h.tableStart])
  }

  predicate ClauseValid(s: string, c: Clause) {
    && KeywordAt(s, c.intoAt, "INTO")
    && SpaceRun(s, c.intoAt + 4, c.afterInto)
    && (match c.kind
        case Itab => KeywordAt(s, c.afterInto, "TABLE") && SpaceRun(s, c.afterInto + 5, c.nameStart)
        case Wa => c.nameStart == c.afterInto)
    && WordRun(s, c.nameStart, c.nameEnd)
    && c.nameEnd <= c.dot < |s| && s[c.dot] == '.'
  }

  /** A table name ending after `tableStart` and no later than `maxEnd`,
      followed by a middle and a valid INTO clause. */
  predicate SplitOk(s: string, tableStart: nat, maxEnd: nat, sp: Split) {
    tableStart < sp.tableEnd <= maxEnd && sp.tableEnd <= sp.clause.intoAt && ClauseValid(s, sp.clause)
  }

  /** One complete way for the pattern to match `s`. */
  predicate ValidParse(s: string, q: Parse) {
    && HeadValid(s, q.head)
    && WordRun(s, q.head.tableStart, q.split.tableEnd)
    && q.split.tableEnd <= q.split.clause.intoAt
    && ClauseValid(s, q.split.clause)
  }

  function KindRank(k: TargetKind): nat {
    match k
    case Itab => 0
    case Wa => 1
  }

  /** Backtracking order within one INTO position: the `INTO TABLE`
      alternative first, then the longer target name, then the shorter tail. */
  predicate TargetTriedNoLater(c: Clause, d: Clause) {
    c.nameEnd > d.nameEnd || (c.nameEnd == d.nameEnd && c.dot <= d.dot)
  }

  /** Backtracking order of INTO clauses: the shorter middle first. */
  predicate ClauseTriedNoLater(c: Clause, d: Clause) {
    || c.intoAt < d.intoAt
    || (c.intoAt == d.intoAt && KindRank(c.kind) < KindRank(d.kind))
    || (c.intoAt == d.intoAt && c.kind == d.kind && TargetTriedNoLater(c, d))
  }

  /** Backtracking order of splits: the longer table name first. */
  predicate SplitTriedNoLater(a: Split, b: Split) {
    a.tableEnd > b.tableEnd || (a.tableEnd == b.tableEnd && ClauseTriedNoLater(a.clause, b.clause))
  }

  /** The match a backtracking matcher reports for a start position: a valid
      parse that comes first, in backtracking order, among all parses from the
      same start. */
  ghost predicate Chosen(s: string, q: Parse) {
    ValidParse(s, q) &&
    forall r :: ValidParse(s, r) && r.head.start == q.head.start ==> SplitTriedNoLater(q.split, r.split)
  }

  /** No parse of the pattern starts in `[lo, hi)`. */
  ghost predicate NoMatchStarts(s: string, lo: nat, hi: nat) {
    forall r :: ValidParse(s, r) ==> !(lo <= r.head.start < hi)
  }

  // ---------------------------------------------------------------- head

  /** The only head that can start at `p`: each `\s+` takes the longest run
      of blanks (what follows it is never a blank), and `SINGLE \s+` is taken
      when present (without it, `*` would have to stand where `S` does). */
  function CandidateHead(s: string, p: nat): (h: Head)
    requires p <= |s|
  {
    var a := if p + 6 <= |s| then SkipSpaces(s, p + 6) else p;
    var single := KeywordAt(s, a, "SINGLE") && SkipSpaces(s, a + 6) > a + 6;
    var star := if single then SkipSpaces(s, a + 6) else a;
    var fr := if star + 1 <= |s| then SkipSpaces(s, star + 1) else star;
    var ts := if fr + 4 <= |s| then SkipSpaces(s, fr + 4) else fr;
    Head(p, a, single, star, fr, ts)
  }

  /** `SELECT \s+ (SINGLE \s+)? \* \s+ FROM \s+` at `p`, followed by the
      first character of the table name. */
  function ScanHead(s: string, p: nat): (r: Option<Head>)
    requires p <= |s|
    ensures r.Some? ==> HeadValid(s, r.value) && r.value.start == p
    ensures r.Some? ==> forall h :: HeadValid(s, h) && h.start == p ==> h == r.value
    ensures r.None? ==> forall h :: HeadValid(s, h) ==> h.start != p
  {
    var h := CandidateHead(s, p);
    assert forall g :: HeadValid(s, g) && g.start == p ==> g == h by {
      forall g | HeadValid(s, g) && g.start == p
        ensures g == h
      {
        HeadIsCandidate(s, g);
      }
    }
    if HeadValid(s, h) then Some(h) else None
  }

  /** The blank runs of any valid head are the longest ones. */
  lemma HeadFromLongestRuns(s: string, g: Head)
    requires HeadValid(s, g)
    ensures g.afterSelect == SkipSpaces(s, g.start + 6)
    ensures g.single == (KeywordAt(s, g.afterSelect, "SINGLE") && SkipSpaces(s, g.afterSelect + 6) > g.afterSelect + 6)
    ensures g.single ==> g.star == SkipSpaces(s, g.afterSelect + 6)
    ensures g.fromAt == SkipSpaces(s, g.star + 1)
    ensures g.tableStart == SkipSpaces(s, g.fromAt + 4)
  {
    if g.single {
      SingleHeadRuns(s, g);
    } else {
      PlainHeadRuns(s, g);
    }
    FromRuns(s, g);
  }

  lemma SingleHeadRuns(s: string, g: Head)
    requires HeadValid(s, g) && g.single
    ensures g.afterSelect == SkipSpaces(s, g.start + 6)
    ensures KeywordAt(s, g.afterSelect, "SINGLE") && SkipSpaces(s, g.afterSelect + 6) > g.afterSelect + 6
    ensures g.star == SkipSpaces(s, g.afterSelect + 6)
  {
    KeywordNotOnSpace(s, g.afterSelect, "SINGLE");
    SpaceRunIsLongest(s, g.start + 6, g.afterSelect);
    SpaceRunIsLongest(s, g.afterSelect + 6, g.star);
  }

  lemma PlainHeadRuns(s: string, g: Head)
    requires HeadValid(s, g) && !g.single
    ensures g.afterSelect == SkipSpaces(s, g.start + 6)
    ensures !KeywordAt(s, g.afterSelect, "SINGLE")
  {
    assert s[g.star] == '*';
    SpaceRunIsLongest(s, g.start + 6, g.afterSelect);
    assert Upper(s[g.afterSelect + 0]) != "SINGLE"[0];
  }

  lemma FromRuns(s: string, g: Head)
    requires HeadValid(s, g)
    ensures g.fromAt == SkipSpaces(s, g.star + 1)
    ensures g.tableStart == SkipSpaces(s, g.fromAt + 4)
  {
    KeywordNotOnSpace(s, g.fromAt, "FROM");
    SpaceRunIsLongest(s, g.star + 1, g.fromAt);
    SpaceRunIsLongest(s, g.fromAt + 4, g.tableStart);
  }

  // ---------------------------------------------------------------- INTO clause

  /** One alternative of the INTO clause at `m`, with the longest target name
      and the first period after it. */
  function TryTarget(s: string, m: nat, kind: TargetKind): (r: Option<Clause>)
    requires m <= |s|
    ensures r.Some? ==> ClauseValid(s, r.value) && r.value.intoAt == m && r.value.kind == kind
    ensures r.Some? ==> forall c :: ClauseValid(s, c) && c.intoAt == m && c.kind == kind ==> TargetTriedNoLater(r.value, c)
    ensures r.None? ==> forall c :: ClauseValid(s, c) && c.intoAt == m ==> c.kind != kind
  {
    if !KeywordAt(s, m, "INTO") then None
    else
      var f := SkipSpaces(s, m + 4);
      var ns := NameStart(s, f, kind);
      if f == m + 4 || ns.None? then
        NoTargetAt(s, m, kind);
        None
      else
        var h := SkipWord(s, ns.value);
        if h == ns.value then
          NoTargetAt(s, m, kind);
          None
        else
          match FirstIndexOf(s, h, '.')
          case None =>
            TargetAbsent(s, m, kind);
            None
          case Some(d) =>
            var c := Clause(m, f, kind, ns.value, h, d);
            TargetFirst(s, c);
            Some(c)
  }

  /** Where the target name starts, given the end `f` of the blanks after `INTO`. */
  function NameStart(s: string, f: nat, kind: TargetKind): Option<nat>
    requires f <= |s|
  {
    match kind
    case Wa => Some(f)
    case Itab =>
      if !KeywordAt(s, f, "TABLE") then None
      else
        var g := SkipSpaces(s, f + 5);
        if g == f + 5 then None else Some(g)
  }

  /** The blank run and the name start of a valid clause are the longest-run ones. */
  lemma ClauseFromLongestRuns(s: string, c: Clause)
    requires ClauseValid(s, c)
    ensures c.afterInto == SkipSpaces(s, c.intoAt + 4) && c.afterInto > c.intoAt + 4
    ensures NameStart(s, c.afterInto, c.kind) == Some(c.nameStart)
    ensures c.nameEnd <= SkipWord(s, c.nameStart)
    ensures forall k :: c.nameStart <= k < SkipWord(s, c.nameStart) ==> s[k] != '.'
    ensures SkipWord(s, c.nameStart) <= c.dot
  {
    match c.kind
    case Itab =>
      KeywordNotOnSpace(s, c.afterInto, "TABLE");
      SpaceRunIsLongest(s, c.intoAt + 4, c.afterInto);
      assert IsWordChar(s[c.nameStart]);
      SpaceRunIsLongest(s, c.afterInto + 5, c.nameStart);
    case Wa =>
      assert IsWordChar(s[c.nameStart]);
      SpaceRunIsLongest(s, c.intoAt + 4, c.afterInto);
    WordRunWithinLongest(s, c.nameStart, c.nameEnd);
  }

  /** When the blanks after `INTO` or the start of the name cannot be found,
      no clause of this kind starts at `m`. */
  lemma NoTargetAt(s: string, m: nat, kind: TargetKind)
    requires KeywordAt(s, m, "INTO")
    requires
      var f := SkipSpaces(s, m + 4);
      var ns := NameStart(s, f, kind);
      f == m + 4 || ns.None? || SkipWord(s, ns.value) == ns.value
    ensures forall c :: ClauseValid(s, c) && c.intoAt == m ==> c.kind != kind
  {
    forall c | ClauseValid(s, c) && c.intoAt == m && c.kind == kind
      ensures false
    {
      ClauseFromLongestRuns(s, c);
    }
  }

  lemma TargetAbsent(s: string, m: nat, kind: TargetKind)
    requires KeywordAt(s, m, "INTO")
    requires NameStart(s, SkipSpaces(s, m + 4), kind).Some?
    requires FirstIndexOf(s, SkipWord(s, NameStart(s, SkipSpaces(s, m + 4), kind).value), '.').None?
    ensures forall c :: ClauseValid(s, c) && c.intoAt == m ==> c.kind != kind
  {
    forall c | ClauseValid(s, c) && c.intoAt == m && c.kind == kind
      ensures false
    {
      ClauseFromLongestRuns(s, c);
    }
  }

  lemma TargetFirst(s: string, c: Clause)
    requires ClauseValid(s, c)
    requires c.afterInto == SkipSpaces(s, c.intoAt + 4)
    requires c.nameEnd == SkipWord(s, c.nameStart)
    requires FirstIndexOf(s, c.nameEnd, '.') == Some(c.dot)
    ensures forall d :: ClauseValid(s, d) && d.intoAt == c.intoAt && d.kind == c.kind ==> TargetTriedNoLater(c, d)
  {
    forall d | ClauseValid(s, d) && d.intoAt == c.intoAt && d.kind == c.kind
      ensures TargetTriedNoLater(c, d)
    {
      ClauseFromLongestRuns(s, c);
      ClauseFromLongestRuns(s, d);
    }
  }

  /** The INTO clause at `m`: `INTO TABLE <name>` is tried before `INTO <name>`. */
  function TryClause(s: string, m: nat): (r: Option<Clause>)
    requires m <= |s|
    ensures r.Some? ==> ClauseValid(s, r.value) && r.value.intoAt == m
    ensures r.Some? ==> forall c :: ClauseValid(s, c) && c.intoAt == m ==> ClauseTriedNoLater(r.value, c)
    ensures r.None? ==> forall c :: ClauseValid(s, c) ==> c.intoAt != m
  {
    match TryTarget(s, m, Itab)
    case Some(c) => Some(c)
    case None => TryTarget(s, m, Wa)
  }

  /** The lazy middle: the first position at or after `m` where an INTO clause
      (with its tail and period) matches. */
  function FindClause(s: string, m: nat): (r: Option<Clause>)
    requires m <= |s|
    ensures r.Some? ==> ClauseValid(s, r.value) && m <= r.value.intoAt
    ensures r.Some? ==> forall c :: ClauseValid(s, c) && m <= c.intoAt ==> ClauseTriedNoLater(r.value, c)
    ensures r.None? ==> forall c :: ClauseValid(s, c) ==> c.intoAt < m
    decreases |s| - m
  {
    match TryClause(s, m)
    case Some(c) => Some(c)
    case None => if m == |s| then None else FindClause(s, m + 1)
  }

  /** The greedy table name: its longest form ends at `te`; shorter forms are
      tried only when no INTO clause follows the longer ones. */
  function FindTable(s: string, ts: nat, te: nat): (r: Option<Split>)
    requires ts < te <= |s|
    ensures r.Some? ==> SplitOk(s, ts, te, r.value)
    ensures r.Some? ==> forall sp :: SplitOk(s, ts, te, sp) ==> SplitTriedNoLater(r.value, sp)
    ensures r.None? ==> forall sp :: !SplitOk(s, ts, te, sp)
    decreases te
  {
    match FindClause(s, te)
    case Some(c) => Some(Split(te, c))
    case None =>
      if te - 1 > ts then
        var r := FindTable(s, ts, te - 1);
        assert forall sp :: SplitOk(s, ts, te, sp) ==> SplitOk(s, ts, te - 1, sp) by {
          forall sp | SplitOk(s, ts, te, sp)
            ensures SplitOk(s, ts, te - 1, sp)
          {
            assert sp.clause.intoAt < te;
          }
        }
        r
      else
        None
  }

  // ---------------------------------------------------------------- whole matches

  /** The match reported for a start position `p`, if the pattern matches there. */
  function MatchAt(s: string, p: nat): (r: Option<Parse>)
    requires p <= |s|
    ensures r.Some? ==> Chosen(s, r.value) && r.value.head.start == p
    ensures r.None? ==> forall q :: ValidParse(s, q) ==> q.head.start != p
  {
    match ScanHead(s, p)
    case None => None
    case Some(h) =>
      var tm := SkipWord(s, h.tableStart);
      match FindTable(s, h.tableStart, tm)
      case None =>
        NoSplitNoMatch(s, h);
        None
      case Some(sp) =>
        SplitChosen(s, h, sp);
        Some(Parse(h, sp))
  }

  /** Every parse from the start of a head has a split whose table name ends
      within the longest word run. */
  lemma SplitsWithinWord(s: string, h: Head)
    requires HeadValid(s, h)
    requires forall g :: HeadValid(s, g) && g.start == h.start ==> g == h
    ensures forall q :: ValidParse(s, q) && q.head.start == h.start ==>
      q.head == h && SplitOk(s, h.tableStart, SkipWord(s, h.tableStart), q.split)
  {
    forall q | ValidParse(s, q) && q.head.start == h.start
      ensures q.head == h && SplitOk(s, h.tableStart, SkipWord(s, h.tableStart), q.split)
    {
      WordRunWithinLongest(s, h.tableStart, q.split.tableEnd);
    }
  }

  lemma NoSplitNoMatch(s: string, h: Head)
    requires HeadValid(s, h)
    requires forall g :: HeadValid(s, g) && g.start == h.start ==> g == h
    requires forall sp :: !SplitOk(s, h.tableStart, SkipWord(s, h.tableStart), sp)
    ensures forall q :: ValidParse(s, q) ==> q.head.start != h.start
  {
    SplitsWithinWord(s, h);
  }

  lemma SplitChosen(s: string, h: Head, sp: Split)
    requires HeadValid(s, h)
    requires forall g :: HeadValid(s, g) && g.start == h.start ==> g == h
    requires SplitOk(s, h.tableStart, SkipWord(s, h.tableStart), sp)
    requires forall o :: SplitOk(s, h.tableStart, SkipWord(s, h.tableStart), o) ==> SplitTriedNoLater(sp, o)
    ensures Chosen(s, Parse(h, sp))
  {
    SplitsWithinWord(s, h);
    assert WordRun(s, h.tableStart, sp.tableEnd);
  }

  function End(q: Parse): nat {
    q.split.clause.dot + 1
  }

  /** `finditer` from position `pos`: try each start in turn, and after a match
      continue at its end. */
  function FindAll(s: string, pos: nat): (ms: seq<Parse>)
    requires pos <= |s|
    ensures ScanOf(s, pos, ms)
    decreases |s| - pos
  {
    match MatchAt(s, pos)
    case Some(q) =>
      [q] + FindAll(s, End(q))
    case None =>
      if pos == |s| then
        []
      else
        var rest := FindAll(s, pos + 1);
        ScanSkip(s, pos, rest);
        rest
  }

  /** `ms` is what `finditer` reports from `pos`: the first match is the chosen
      parse at the first position from `pos` on where the pattern matches, and
      the rest is what it reports from that match's end; with no such
      position, nothing. */
  ghost predicate ScanOf(s: string, pos: nat, ms: seq<Parse>)
    decreases |ms|
  {
    if ms == [] then NoMatchStarts(s, pos, |s| + 1)
    else
      && Chosen(s, ms[0])
      && pos <= ms[0].head.start
      && NoMatchStarts(s, pos, ms[0].head.start)
      && ScanOf(s, End(ms[0]), ms[1..])
  }

  lemma ScanSkip(s: string, pos: nat, rest: seq<Parse>)
    requires pos < |s|
    requires forall q :: ValidParse(s, q) ==> q.head.start != pos
    requires ScanOf(s, pos + 1, rest)
    ensures ScanOf(s, pos, rest)
  {
    var hi := if rest == [] then |s| + 1 else rest[0].head.start;
    assert NoMatchStarts(s, pos + 1, hi);
    forall r | ValidParse(s, r)
      ensures !(pos <= r.head.start < hi)
    {
    }
  }

  /** A match ends after it starts. */
  lemma EndAfterStart(s: string, q: Parse)
    requires ValidParse(s, q)
    ensures q.head.start < End(q) <= |s|
  {
  }

  /** Everything reported by a scan is a chosen parse starting at or after `pos`. */
  lemma {:induction false} ScanOfChosen(s: string, pos: nat, ms: seq<Parse>)
    requires ScanOf(s, pos, ms)
    ensures forall i :: 0 <= i < |ms| ==> Chosen(s, ms[i]) && pos <= ms[i].head.start
    decreases |ms|
  {
    if ms != [] {
      var rest := ms[1..];
      EndAfterStart(s, ms[0]);
      ScanOfChosen(s, End(ms[0]), rest);
      forall i | 0 < i < |ms|
        ensures Chosen(s, ms[i]) && pos <= ms[i].head.start
      {
        assert ms[i] == rest[i - 1];
      }
    }
  }

  /** Later matches of a scan start at or after earlier ones end. */
  lemma {:induction false} ScanOfOrdered(s: string, pos: nat, ms: seq<Parse>)
    requires ScanOf(s, pos, ms)
    ensures forall i, j :: 0 <= i < j < |ms| ==> End(ms[i]) <= ms[j].head.start
    decreases |ms|
  {
    if ms != [] {
      var rest := ms[1..];
      ScanOfOrdered(s, End(ms[0]), rest);
      ScanOfChosen(s, End(ms[0]), rest);
      forall i, j | 0 <= i < j < |ms|
        ensures End(ms[i]) <= ms[j].head.start
      {
        assert ms[j] == rest[j - 1];
        if i > 0 {
          assert ms[i] == rest[i - 1];
        }
      }
    }
  }

  /** Every valid head is the candidate built from the longest blank runs. */
  lemma HeadIsCandidate(s: string, g: Head)
    requires HeadValid(s, g)
    ensures g == CandidateHead(s, g.start)
  {
    HeadFromLongestRuns(s, g);
    var h := CandidateHead(s, g.start);
    assert g.start + 6 <= |s| && g.star + 1 <= |s| && g.fromAt + 4 <= |s|;
    assert h.afterSelect == g.afterSelect;
    assert h.single == g.single;
    assert h.star == g.star;
    assert h.fromAt == g.fromAt;
    assert h.tableStart == g.tableStart;
  }

  /** A valid clause is fixed by its INTO position, kind, name end and period. */
  lemma ClauseDetermined(s: string, c: Clause, d: Clause)
    requires ClauseValid(s, c) && ClauseValid(s, d)
    requires c.intoAt == d.intoAt && c.kind == d.kind && c.nameEnd == d.nameEnd && c.dot == d.dot
    ensures c == d
  {
    ClauseFromLongestRuns(s, c);
    ClauseFromLongestRuns(s, d);
  }

  /** Two chosen parses from the same start are the same parse: the choice
      leaves nothing open. */
  lemma ChosenUnique(s: string, q: Parse, r: Parse)
    requires Chosen(s, q) && Chosen(s, r) && q.head.start == r.head.start
    ensures q == r
  {
    HeadIsCandidate(s, q.head);
    HeadIsCandidate(s, r.head);
    assert SplitTriedNoLater(q.split, r.split);
    assert SplitTriedNoLater(r.split, q.split);
    ClauseDetermined(s, q.split.clause, r.split.clause);
  }

  /** A scan from `pos` reports something when a parse starts at or after `pos`. */
  lemma ScanFindsValid(s: string, pos: nat, ms: seq<Parse>, q: Parse)
    requires ScanOf(s, pos, ms) && ValidParse(s, q) && pos <= q.head.start
    ensures ms != []
  {
    EndAfterStart(s, q);
  }

  lemma ScansBothEmpty(s: string, pos: nat, ms: seq<Parse>, ns: seq<Parse>)
    requires ScanOf(s, pos, ms) && ScanOf(s, pos, ns)
    ensures ms == [] <==> ns == []
  {
    if ms != [] {
      ScanFindsValid(s, pos, ns, ms[0]);
    }
    if ns != [] {
      ScanFindsValid(s, pos, ms, ns[0]);
    }
  }

  lemma FirstMatchesAgree(s: string, pos: nat, ms: seq<Parse>, ns: seq<Parse>)
    requires ms != [] && ns != [] && ScanOf(s, pos, ms) && ScanOf(s, pos, ns)
    ensures ms[0] == ns[0] && ScanOf(s, End(ms[0]), ms[1..]) && ScanOf(s, End(ms[0]), ns[1..])
  {
    assert Chosen(s, ms[0]) && Chosen(s, ns[0]);
    assert ms[0].head.start == ns[0].head.start;
    ChosenUnique(s, ms[0], ns[0]);
  }

  /** The scan from `pos` is determined: at most one list of matches meets `ScanOf`. */
  lemma {:induction false} ScanOfUnique(s: string, pos: nat, ms: seq<Parse>, ns: seq<Parse>)
    requires ScanOf(s, pos, ms) && ScanOf(s, pos, ns)
    ensures ms == ns
    decreases |ms|
  {
    ScansBothEmpty(s, pos, ms, ns);
    if ms != [] {
      FirstMatchesAgree(s, pos, ms, ns);
      ScanOfUnique(s, End(ms[0]), ms[1..], ns[1..]);
      assert ms == [ms[0]] + ms[1..] && ns == [ns[0]] + ns[1..];
    }
  }

  /** `target_type` is `itab` exactly when the `INTO TABLE` alternative can
      match at the INTO position of the reported match. */
  lemma ItabIffIntoTable(s: string, q: Parse)
    requires Chosen(s, q)
    ensures q.split.clause.kind == Itab <==>
      exists c :: ClauseValid(s, c) && c.intoAt == q.split.clause.intoAt && c.kind == Itab
  {
    if c :| ClauseValid(s, c) && c.intoAt == q.split.clause.intoAt && c.kind == Itab {
      var r := Parse(q.head, Split(q.split.tableEnd, c));
      assert ValidParse(s, r);
      assert SplitTriedNoLater(q.split, r.split);
    }
  }

  // ---------------------------------------------------------------- records

  /** The dictionary `find_selects` builds from one match. */
  datatype SelectRecord = SelectRecord(text: string, table: string, kind: TargetKind, targetName: string, start: nat, end: nat)

  /** The record of one match: the texts of the `full`, `table` and target
      groups of the chosen parse, and the span of the whole match, which
      starts at `SELECT` and holds the statement followed by the period; the
      table and target names are non-empty runs of word characters; the kind
      is the matched alternative. */
  function ToRecord(s: string, q: Parse): (r: SelectRecord)
    requires ValidParse(s, q)
    ensures r.start == q.head.start && r.end == End(q) && r.kind == q.split.clause.kind
    ensures r.text == s[q.head.start .. q.split.clause.dot]
    ensures r.table == s[q.head.tableStart .. q.split.tableEnd]
    ensures r.targetName == s[q.split.clause.nameStart .. q.split.clause.nameEnd]
    ensures r.start < r.end <= |s| && s[r.start .. r.end] == r.text + "." && KeywordAt(r.text, 0, "SELECT")
    ensures |r.table| > 0 && forall k :: 0 <= k < |r.table| ==> IsWordChar(r.table[k])
    ensures |r.targetName| > 0 && forall k :: 0 <= k < |r.targetName| ==> IsWordChar(r.targetName[k])
  {
    var c := q.split.clause;
    var r := SelectRecord(s[q.head.start .. c.dot], s[q.head.tableStart .. q.split.tableEnd], c.kind,
                          s[c.nameStart .. c.nameEnd], q.head.start, End(q));
    assert s[r.start .. r.end] == s[r.start .. c.dot] + [s[c.dot]];
    assert forall k :: 0 <= k < 6 ==> r.text[k] == s[q.head.start + k];
    r
  }

  /** `find_selects`: one record per match of `finditer`, in order. The span
      covers the matched text and the period after it; the text begins with
      `SELECT`; spans do not overlap; no `SELECT` means no record. */
  function FindSelects(s: string): (rs: seq<SelectRecord>)
    ensures |rs| == |FindAll(s, 0)|
    ensures forall i :: 0 <= i < |rs| ==> rs[i].start < rs[i].end <= |s| && s[rs[i].start .. rs[i].end] == rs[i].text + "."
    ensures forall i :: 0 <= i < |rs| ==> KeywordAt(rs[i].text, 0, "SELECT")
    ensures forall i, j :: 0 <= i < j < |rs| ==> rs[i].end <= rs[j].start
    ensures (forall i :: 0 <= i <= |s| ==> !KeywordAt(s, i, "SELECT")) ==> rs == []
  {
    var ms := FindAll(s, 0);
    RecordsFacts(s, ms);
    Records(s, ms)
  }

  /** Any list of leftmost, highest-priority, non-overlapping matches that
      leaves no match uncovered gives exactly these records. */
  lemma FindSelectsIsTheScan(s: string, ms: seq<Parse>)
    requires ScanOf(s, 0, ms)
    ensures forall i :: 0 <= i < |ms| ==> ValidParse(s, ms[i])
    ensures FindSelects(s) == Records(s, ms)
  {
    ScanOfUnique(s, 0, ms, FindAll(s, 0));
    RecordsFacts(s, ms);
  }

  function Records(s: string, ms: seq<Parse>): (rs: seq<SelectRecord>)
    requires forall i :: 0 <= i < |ms| ==> ValidParse(s, ms[i])
    ensures |rs| == |ms| && forall i :: 0 <= i < |ms| ==> rs[i] == ToRecord(s, ms[i])
  {
    seq(|ms|, i requires 0 <= i < |ms| => ToRecord(s, ms[i]))
  }

  lemma RecordsFacts(s: string, ms: seq<Parse>)
    requires ScanOf(s, 0, ms)
    ensures forall i :: 0 <= i < |ms| ==> ValidParse(s, ms[i])
    ensures var rs := Records(s, ms);
      && (forall i :: 0 <= i < |rs| ==> rs[i].start < rs[i].end <= |s| && s[rs[i].start .. rs[i].end] == rs[i].text + ".")
      && (forall i :: 0 <= i < |rs| ==> KeywordAt(rs[i].text, 0, "SELECT"))
      && (forall i, j :: 0 <= i < j < |rs| ==> rs[i].end <= rs[j].start)
      && ((forall i :: 0 <= i <= |s| ==> !KeywordAt(s, i, "SELECT")) ==> rs == [])
  {
    ScanOfChosen(s, 0, ms);
    ScanOfOrdered(s, 0, ms);
    RecordSpans(s, ms);
    if ms != [] {
      FirstRecordAtSelect(s, ms);
    }
  }

  lemma RecordSpans(s: string, ms: seq<Parse>)
    requires forall i :: 0 <= i < |ms| ==> ValidParse(s, ms[i])
    ensures var rs := Records(s, ms);
      && (forall i :: 0 <= i < |rs| ==> rs[i].start < rs[i].end <= |s| && s[rs[i].start .. rs[i].end] == rs[i].text + ".")
      && (forall i :: 0 <= i < |rs| ==> KeywordAt(rs[i].text, 0, "SELECT"))
  {
    var rs := Records(s, ms);
    forall i | 0 <= i < |rs|
      ensures rs[i].start < rs[i].end <= |s| && s[rs[i].start .. rs[i].end] == rs[i].text + "."
      ensures KeywordAt(rs[i].text, 0, "SELECT")
    {
      assert rs[i] == ToRecord(s, ms[i]);
    }
  }

  lemma FirstRecordAtSelect(s: string, ms: seq<Parse>)
    requires ms != [] && ValidParse(s, ms[0])
    ensures ms[0].head.start <= |s| && KeywordAt(s, ms[0].head.start, "SELECT")
  {
  }

  // ---------------------------------------------------------------- examples

  /** Leftmost matching: when a parse starts at `p` and no `SELECT` occurs
      before `p`, the first match reported starts at `p`. */
  lemma FirstMatchAt(s: string, ms: seq<Parse>, q: Parse)
    requires ScanOf(s, 0, ms) && ValidParse(s, q)
    requires forall i :: 0 <= i < q.head.start ==> !KeywordAt(s, i, "SELECT")
    ensures ms != [] && ms[0].head.start == q.head.start
  {
    assert ms != [];
    assert ValidParse(s, ms[0]);
  }

  /** `SELECT` is not word-bounded: it is found inside `XSELECT`. */
  lemma SelectNotWordBounded(s: string)
    requires s == "XSELECT * FROM T INTO W."
    ensures FindAll(s, 0) != [] && FindAll(s, 0)[0].head.start == 1
  {
    var q := Parse(Head(1, 8, false, 8, 10, 15), Split(16, Clause(17, 22, Wa, 22, 23, 23)));
    NotBoundedPieces(s);
    assert ValidParse(s, q);
    assert Upper(s[0 + 0]) != "SELECT"[0];
    assert forall i :: 0 <= i < q.head.start ==> !KeywordAt(s, i, "SELECT");
    FirstMatchAt(s, FindAll(s, 0), q);
  }

  lemma NotBoundedPieces(s: string)
    requires s == "XSELECT * FROM T INTO W."
    ensures HeadValid(s, Head(1, 8, false, 8, 10, 15))
    ensures WordRun(s, 15, 16)
    ensures ClauseValid(s, Clause(17, 22, Wa, 22, 23, 23))
  {
  }

  /** The middle may contain a period: a statement whose INTO comes after an
      earlier period is still located, from its `SELECT`. */
  lemma MiddleCrossesPeriod(s: string)
    requires s == "SELECT * FROM T.INTO W."
    ensures FindAll(s, 0) != [] && FindAll(s, 0)[0].head.start == 0
  {
    var q := Parse(Head(0, 7, false, 7, 9, 14), Split(15, Clause(16, 21, Wa, 21, 22, 22)));
    CrossingPieces(s);
    assert ValidParse(s, q);
    FirstMatchAt(s, FindAll(s, 0), q);
  }

  lemma CrossingPieces(s: string)
    requires s == "SELECT * FROM T.INTO W."
    ensures HeadValid(s, Head(0, 7, false, 7, 9, 14))
    ensures WordRun(s, 14, 15)
    ensures ClauseValid(s, Clause(16, 21, Wa, 21, 22, 22))
  {
  }
}

=== FILE: remediation.dfy ===
/** The loop body of the `/remediate-array` endpoint: for each posted unit,
    locate the `SELECT *` statements, describe each one and suggest a
    statement with the draft filter for those on VBRK or VBRP. */
module Remediation {
  import opened Wrappers
  import opened Text
  import opened Locator
  import opened Injector
  import opened SpanEditor

  /** One posted unit of ABAP code. */
  datatype Unit = Unit(
    pgmName: string,
    incName: string,
    unitType: string,
    name: Option<string>,
    classImplementation: Option<string>,
    startLine: Option<int>,
    endLine: Option<int>,
    code: Option<string>)

  /** The metadata reported for one located statement. */
  datatype SelectInfo = SelectInfo(
    table: string,
    targetType: string,
    targetName: string,
    startChar: nat,
    endChar: nat,
    usedFields: seq<string>,
    ambiguous: bool,
    suggestedFields: Option<seq<string>>,
    suggestedStatement: Option<string>)

  /** A unit echoed back with the statements found in it. */
  datatype UnitResult = UnitResult(unit: Unit, selects: seq<SelectInfo>)

  /** `u.code or ""`: a missing code is the empty text. */
  function SourceOf(u: Unit): (src: string)
    ensures u.code.Some? ==> src == u.code.value
    ensures u.code.None? ==> src == ""
  {
    match u.code
    case None => ""
    case Some(c) => c
  }

  /** The `target_type` label of a match. */
  function KindName(k: TargetKind): string {
    match k
    case Itab => "itab"
    case Wa => "wa"
  }

  /** The metadata of one located statement: its table, target, span and
      the fixed placeholder fields. */
  function Describe(r: SelectRecord): (info: SelectInfo)
    ensures info.table == r.table && info.targetName == r.targetName
    ensures info.startChar == r.start && info.endChar == r.end
    ensures info.targetType == (if r.kind == Itab then "itab" else "wa")
    ensures info.usedFields == [] && !info.ambiguous && info.suggestedFields == None
  {
    var base := SelectInfo(r.table, KindName(r.kind), r.targetName, r.start, r.end, [], false, None, None);
    if Governed(UpperString(r.table)) then
      var stmt := BuildReplacement(r.text, r.table, KindName(r.kind), r.targetName);
      if stmt != r.text then base.(suggestedStatement := Some(stmt)) else base
    else
      base
  }

  /** A statement is given a suggestion exactly when its table is VBRK or
      VBRP and it does not yet compare the draft column; the suggestion is
      the injector's result and carries the filter. */
  lemma DescribeSuggests(r: SelectRecord)
    ensures var info := Describe(r); var t := UpperString(r.table);
      && (info.suggestedStatement.Some? <==> Governed(t) && !HasFilter(r.text, t))
      && (info.suggestedStatement.Some? ==>
            && info.suggestedStatement.value == EnsureDraftFilter(r.text, r.table)
            && HasFilter(info.suggestedStatement.value, t))
  {
  }

  /** The replacements list: one edit per suggested statement, over the
      statement's span, in the order the statements were found. */
  function Replacements(infos: seq<SelectInfo>): (es: seq<Edit>)
    ensures |es| <= |infos|
    ensures es == [] <==> forall i :: 0 <= i < |infos| ==> infos[i].suggestedStatement.None?
    decreases |infos|
  {
    if infos == [] then []
    else
      var head := match infos[0].suggestedStatement
        case Some(stmt) => [Edit(infos[0].startChar, infos[0].endChar, stmt)]
        case None => [];
      var rest := Replacements(infos[1..]);
      assert forall i :: 0 < i < |infos| ==> infos[i] == infos[1..][i - 1];
      head + rest
  }

  /** The edit `e` is the suggestion of entry `i`, over that entry's span. */
  predicate SuggestedAt(infos: seq<SelectInfo>, i: nat, e: Edit)
    requires i < |infos|
  {
    infos[i].suggestedStatement == Some(e.text) && e.start == infos[i].startChar && e.end == infos[i].endChar
  }

  /** Spans that are non-empty and listed left to right without overlap. */
  predicate SpansOrdered(infos: seq<SelectInfo>) {
    && (forall i :: 0 <= i < |infos| ==> infos[i].startChar < infos[i].endChar)
    && (forall i, j :: 0 <= i < j < |infos| ==> infos[i].endChar <= infos[j].startChar)
  }

  /** Every edit is the suggestion of one entry over that entry's span, and
      every suggestion has its edit. */
  lemma {:induction false} ReplacementsAreSuggestions(infos: seq<SelectInfo>)
    ensures var es := Replacements(infos);
      && (forall e :: e in es ==> exists i :: 0 <= i < |infos| && SuggestedAt(infos, i, e))
      && (forall i :: 0 <= i < |infos| && infos[i].suggestedStatement.Some? ==>
            Edit(infos[i].startChar, infos[i].endChar, infos[i].suggestedStatement.value) in es)
    decreases |infos|
  {
    if infos != [] {
      var tail := infos[1..];
      ReplacementsAreSuggestions(tail);
      var es := Replacements(infos);
      var rest := Replacements(tail);
      forall e | e in es
        ensures exists i :: 0 <= i < |infos| && SuggestedAt(infos, i, e)
      {
        if e in rest {
          var k :| 0 <= k < |tail| && SuggestedAt(tail, k, e);
          assert infos[k + 1] == tail[k];
          assert SuggestedAt(infos, k + 1, e);
        } else {
          assert SuggestedAt(infos, 0, e);
        }
      }
      forall i | 0 <= i < |infos| && infos[i].suggestedStatement.Some?
        ensures Edit(infos[i].startChar, infos[i].endChar, infos[i].suggestedStatement.value) in es
      {
        if i > 0 {
          assert infos[i] == tail[i - 1];
        }
      }
    }
  }

  lemma ReplacementsFrom(infos: seq<SelectInfo>, lo: nat)
    requires forall k :: 0 <= k < |infos| ==> lo <= infos[k].startChar
    ensures forall e :: e in Replacements(infos) ==> lo <= e.start
  {
    ReplacementsAreSuggestions(infos);
  }

  lemma TailOrdered(infos: seq<SelectInfo>)
    requires SpansOrdered(infos) && infos != []
    ensures SpansOrdered(infos[1..])
    ensures forall k :: 0 <= k < |infos[1..]| ==> infos[0].endChar <= infos[1..][k].startChar
  {
    var tail := infos[1..];
    forall a, b | 0 <= a < b < |tail|
      ensures tail[a].endChar <= tail[b].startChar
    {
      assert tail[a] == infos[a + 1] && tail[b] == infos[b + 1];
    }
    forall k | 0 <= k < |tail|
      ensures infos[0].endChar <= tail[k].startChar
    {
      assert tail[k] == infos[k + 1];
    }
  }

  lemma {:induction false} ReplacementsOrder(infos: seq<SelectInfo>, i: nat, j: nat)
    requires SpansOrdered(infos)
    requires i < j < |Replacements(infos)|
    ensures Replacements(infos)[i].end <= Replacements(infos)[j].start
    ensures Replacements(infos)[i].start < Replacements(infos)[j].start
    decreases |infos|
  {
    var tail := infos[1..];
    TailOrdered(infos);
    var rest := Replacements(tail);
    var es := Replacements(infos);
    match infos[0].suggestedStatement
    case Some(stmt) =>
      assert es == [Edit(infos[0].startChar, infos[0].endChar, stmt)] + rest;
      if i == 0 {
        ReplacementsFrom(tail, infos[0].endChar);
        assert es[j] == rest[j - 1] && es[j] in rest;
      } else {
        ReplacementsOrder(tail, i - 1, j - 1);
      }
    case None =>
      assert es == rest;
      ReplacementsOrder(tail, i, j);
  }

  /** Entries found left to right give edits listed left to right. */
  lemma ReplacementsAscending(src: string, infos: seq<SelectInfo>)
    requires SpansOrdered(infos) && forall i :: 0 <= i < |infos| ==> infos[i].endChar <= |src|
    ensures var es := Replacements(infos);
      && AscendingFrom(src, 0, es)
      && (forall i, j :: 0 <= i < j < |es| ==> es[i].start < es[j].start)
  {
    var es := Replacements(infos);
    ReplacementsAreSuggestions(infos);
    forall i, j | 0 <= i < j < |es|
      ensures es[i].end <= es[j].start && es[i].start < es[j].start
    {
      ReplacementsOrder(infos, i, j);
    }
    forall i | 0 <= i < |es|
      ensures es[i].start <= es[i].end <= |src|
    {
      assert es[i] in es;
      var k :| 0 <= k < |infos| && SuggestedAt(infos, k, es[i]);
    }
  }

  /** One located span holds its statement followed by the period, and the
      statement begins with `SELECT`. */
  lemma SpanInSource(src: string, r: SelectRecord)
    requires r.start < r.end <= |src| && src[r.start .. r.end] == r.text + "."
    requires KeywordAt(r.text, 0, "SELECT")
    ensures src[r.start .. r.end - 1] == r.text
    ensures src[r.end - 1] == '.'
    ensures KeywordAt(src, r.start, "SELECT")
  {
    var span := src[r.start .. r.end];
    assert src[r.start .. r.end - 1] == span[.. |span| - 1];
    assert src[r.end - 1] == span[|span| - 1];
    assert forall k :: 0 <= k < 6 ==> src[r.start + k] == span[k] == r.text[k];
  }

  /** What the located records say about the unit's text: each span holds
      its statement and the period, the statement begins with `SELECT`, and
      the spans follow each other without overlap. */
  predicate Located(src: string, rs: seq<SelectRecord>) {
    && (forall i :: 0 <= i < |rs| ==>
          rs[i].start < rs[i].end <= |src| && src[rs[i].start .. rs[i].end] == rs[i].text + ".")
    && (forall i :: 0 <= i < |rs| ==> KeywordAt(rs[i].text, 0, "SELECT"))
    && (forall i, j :: 0 <= i < j < |rs| ==> rs[i].end <= rs[j].start)
  }

  lemma FindSelectsLocated(src: string)
    ensures Located(src, FindSelects(src))
  {
  }

  /** One entry per located statement, in order. */
  function Entries(rs: seq<SelectRecord>): (infos: seq<SelectInfo>)
    ensures |infos| == |rs| && forall i :: 0 <= i < |rs| ==> infos[i] == Describe(rs[i])
  {
    seq(|rs|, i requires 0 <= i < |rs| => Describe(rs[i]))
  }

  /** Each entry's span lies within the text, starts with `SELECT` and ends
      with the terminating period, and the spans follow each other without
      overlap. */
  predicate SpansInText(src: string, infos: seq<SelectInfo>) {
    && (forall i :: 0 <= i < |infos| ==>
          && infos[i].startChar < infos[i].endChar <= |src|
          && src[infos[i].endChar - 1] == '.'
          && KeywordAt(src, infos[i].startChar, "SELECT"))
    && (forall i, j :: 0 <= i < j < |infos| ==> infos[i].endChar <= infos[j].startChar)
  }

  lemma EntriesSpans(src: string, rs: seq<SelectRecord>)
    requires Located(src, rs)
    ensures SpansInText(src, Entries(rs))
  {
    var infos := Entries(rs);
    forall i | 0 <= i < |infos|
      ensures infos[i].startChar < infos[i].endChar <= |src|
      ensures src[infos[i].endChar - 1] == '.'
      ensures KeywordAt(src, infos[i].startChar, "SELECT")
    {
      SpanInSource(src, rs[i]);
      assert infos[i].startChar == rs[i].start && infos[i].endChar == rs[i].end;
    }
    forall i, j | 0 <= i < j < |infos|
      ensures infos[i].endChar <= infos[j].startChar
    {
      assert infos[i].endChar == rs[i].end && infos[j].startChar == rs[j].start;
    }
  }

  lemma EntriesSuggest(src: string, rs: seq<SelectRecord>)
    requires Located(src, rs)
    ensures var infos := Entries(rs);
      forall i :: 0 <= i < |infos| ==>
        infos[i].startChar < infos[i].endChar <= |src| && SuggestionAgrees(src, infos[i])
  {
    var infos := Entries(rs);
    forall i | 0 <= i < |infos|
      ensures infos[i].startChar < infos[i].endChar <= |src| && SuggestionAgrees(src, infos[i])
    {
      SpanInSource(src, rs[i]);
      DescribeAgrees(src, rs[i]);
      assert infos[i].startChar == rs[i].start && infos[i].endChar == rs[i].end;
    }
  }

  /** An entry's suggestion, read against the statement in its span (the
      span without its period): present exactly when the table is VBRK or
      VBRP and the statement lacks the draft filter, and then the injector's
      result. */
  ghost predicate SuggestionAgrees(src: string, info: SelectInfo)
    requires info.startChar < info.endChar <= |src|
  {
    var stmt := src[info.startChar .. info.endChar - 1];
    var t := UpperString(info.table);
    && (info.suggestedStatement.Some? <==> Governed(t) && !HasFilter(stmt, t))
    && (info.suggestedStatement.Some? ==> info.suggestedStatement.value == EnsureDraftFilter(stmt, info.table))
  }

  lemma DescribeAgrees(src: string, r: SelectRecord)
    requires r.start < r.end <= |src| && src[r.start .. r.end - 1] == r.text
    ensures SuggestionAgrees(src, Describe(r))
  {
    var info := Describe(r);
    DescribeSuggests(r);
    assert info.startChar == r.start && info.endChar == r.end && info.table == r.table;
  }

  /** The per-unit loop body: the unit is echoed back with one entry per
      `SELECT *` statement found, in order. Entry `i` carries the table,
      target kind, target name and span of the `i`-th located statement,
      and the fixed placeholder fields. */
  function ProcessUnit(u: Unit): (res: UnitResult)
    ensures res.unit == u
    ensures var rs := FindSelects(SourceOf(u));
      |res.selects| == |rs| &&
      forall i :: 0 <= i < |rs| ==>
        && res.selects[i].table == rs[i].table
        && res.selects[i].targetType == (if rs[i].kind == Itab then "itab" else "wa")
        && res.selects[i].targetName == rs[i].targetName
        && res.selects[i].startChar == rs[i].start
        && res.selects[i].endChar == rs[i].end
    ensures forall i :: 0 <= i < |res.selects| ==>
      res.selects[i].usedFields == [] && !res.selects[i].ambiguous && res.selects[i].suggestedFields == None
  {
    UnitResult(u, Entries(FindSelects(SourceOf(u))))
  }

  /** A unit without code (`code` missing) is read as the empty text and
      reports no statement. */
  lemma MissingCodeHasNoSelects(u: Unit)
    requires u.code.None?
    ensures ProcessUnit(u).selects == []
  {
    assert SourceOf(u) == [];
    assert !KeywordAt(SourceOf(u), 0, "SELECT");
  }

  /** Each entry's span starts with `SELECT` and ends with the terminating
      period, and the spans follow each other without overlap. */
  lemma ProcessUnitSpans(u: Unit)
    ensures SpansInText(SourceOf(u), ProcessUnit(u).selects)
  {
    FindSelectsLocated(SourceOf(u));
    EntriesSpans(SourceOf(u), FindSelects(SourceOf(u)));
  }

  /** A suggestion is present exactly when the table is VBRK or VBRP and the
      statement in the entry's span lacks the draft filter, and it is then
      the injector's result for that statement. */
  lemma ProcessUnitSuggests(u: Unit)
    ensures var src := SourceOf(u); var infos := ProcessUnit(u).selects;
      forall i :: 0 <= i < |infos| ==>
        infos[i].startChar < infos[i].endChar <= |src| && SuggestionAgrees(src, infos[i])
  {
    FindSelectsLocated(SourceOf(u));
    EntriesSuggest(SourceOf(u), FindSelects(SourceOf(u)));
  }

  lemma AscendingSeparated(src: string, es: seq<Edit>)
    requires AscendingFrom(src, 0, es)
    requires forall i, j :: 0 <= i < j < |es| ==> es[i].start < es[j].start
    ensures InBounds(src, es) && PairwiseSeparated(es)
  {
    forall e | e in es
      ensures e.start <= e.end <= |src|
    {
      var k :| 0 <= k < |es| && es[k] == e;
    }
  }

  /** The rewrite of the whole unit that the endpoint computes and then
      discards. It puts each suggestion in place of its statement's whole
      span, period included, reading the unit left to right, and its length
      changes by the edits' net change. */
  function InternalRewrite(u: Unit): (r: string)
    ensures var src := SourceOf(u); var es := Replacements(ProcessUnit(u).selects);
      && AscendingFrom(src, 0, es)
      && r == Weave(src, 0, es)
      && |r| == |src| + Delta(es)
  {
    var src := SourceOf(u);
    var es := Replacements(ProcessUnit(u).selects);
    RewriteEditsAscending(u);
    AscendingEditsWoven(src, es);
    AscendingSeparated(src, es);
    ApplyLength(src, es);
    ApplySpanReplacements(src, es)
  }

  /** The unit's edits are listed left to right with increasing starts. */
  lemma RewriteEditsAscending(u: Unit)
    ensures var es := Replacements(ProcessUnit(u).selects);
      && AscendingFrom(SourceOf(u), 0, es)
      && (forall i, j :: 0 <= i < j < |es| ==> es[i].start < es[j].start)
  {
    ProcessUnitSpans(u);
    ReplacementsAscending(SourceOf(u), ProcessUnit(u).selects);
  }

  /** `remediate_array`: one result per posted unit, in the posted order. */
  function RemediateArray(units: seq<Unit>): (results: seq<UnitResult>)
    ensures |results| == |units|
    ensures forall i :: 0 <= i < |units| ==> results[i].unit == units[i]
    ensures forall i :: 0 <= i < |units| ==> results[i] == ProcessUnit(units[i])
  {
    seq(|units|, i requires 0 <= i < |units| => ProcessUnit(units[i]))
  }
}

=== FILE: span_editor.dfy ===
/** The span editor: `apply_span_replacements`. Edits are sorted on
    descending start and spliced into the text one by one, so that each
    splice happens to the right of the ones still to come. */
module SpanEditor {

  /** Replace the half-open span `[start, end)` with `text`. */
  datatype Edit = Edit(start: nat, end: nat, text: string)

  /** `s[:i]`, which stops at the end of `s`. */
  function Take(s: string, i: nat): string {
    if i <= |s| then s[..i] else s
  }

  /** `s[i:]`, which is empty past the end of `s`. */
  function Drop(s: string, i: nat): string {
    if i <= |s| then s[i..] else []
  }

  /** `out[:s] + r + out[e:]` for one edit. */
  function Splice(out: string, e: Edit): string {
    Take(out, e.start) + e.text + Drop(out, e.end)
  }

  predicate StartsDescending(es: seq<Edit>) {
    forall i, j :: 0 <= i < j < |es| ==> es[i].start >= es[j].start
  }

  /** Puts `e` in front of the first edit that does not start after it, so an
      edit stays ahead of the later edits with the same start. */
  function InsertByStart(e: Edit, sorted: seq<Edit>): (r: seq<Edit>)
    ensures multiset(r) == multiset{e} + multiset(sorted)
  {
    if sorted == [] || sorted[0].start <= e.start then [e] + sorted
    else
      assert sorted == [sorted[0]] + sorted[1..];
      [sorted[0]] + InsertByStart(e, sorted[1..])
  }

  lemma ConsDescending(a: Edit, s: seq<Edit>)
    requires StartsDescending(s)
    requires forall y :: y in s ==> y.start <= a.start
    ensures StartsDescending([a] + s)
  {
    var r := [a] + s;
    forall i, j | 0 <= i < j < |r|
      ensures r[i].start >= r[j].start
    {
      assert r[j] == s[j - 1] && r[j] in s;
      if i > 0 {
        assert r[i] == s[i - 1];
      }
    }
  }

  lemma InsertMember(e: Edit, s: seq<Edit>, x: Edit)
    requires x in InsertByStart(e, s)
    ensures x == e || x in s
  {
    assert x in multiset(InsertByStart(e, s));
  }

  lemma {:induction false} InsertKeepsDescending(e: Edit, sorted: seq<Edit>)
    requires StartsDescending(sorted)
    ensures StartsDescending(InsertByStart(e, sorted))
    decreases |sorted|
  {
    if sorted == [] || sorted[0].start <= e.start {
      ConsDescending(e, sorted);
    } else {
      var tail := sorted[1..];
      assert StartsDescending(tail);
      InsertKeepsDescending(e, tail);
      var rest := InsertByStart(e, tail);
      forall x | x in rest
        ensures x.start <= sorted[0].start
      {
        InsertMember(e, tail, x);
        if x != e {
          var k :| 0 <= k < |tail| && tail[k] == x;
          assert sorted[k + 1] == x;
        }
      }
      ConsDescending(sorted[0], rest);
    }
  }

  /** `sorted(repls, key=start, reverse=True)`: a stable sort on descending
      start; the result is a permutation of the edits. */
  function SortByStartDesc(edits: seq<Edit>): (r: seq<Edit>)
    ensures multiset(r) == multiset(edits)
    ensures StartsDescending(r)
  {
    if edits == [] then []
    else
      assert edits == [edits[0]] + edits[1..];
      InsertKeepsDescending(edits[0], SortByStartDesc(edits[1..]));
      InsertByStart(edits[0], SortByStartDesc(edits[1..]))
  }

  /** Stability: a list already on descending start, ties included, comes
      back as it is, so edits with equal starts keep their listed order. */
  lemma {:induction false} SortKeepsSortedOrder(edits: seq<Edit>)
    requires StartsDescending(edits)
    ensures SortByStartDesc(edits) == edits
    decreases |edits|
  {
    if edits != [] {
      var tail := edits[1..];
      assert StartsDescending(tail) by {
        forall i, j | 0 <= i < j < |tail|
          ensures tail[i].start >= tail[j].start
        {
          assert tail[i] == edits[i + 1] && tail[j] == edits[j + 1];
        }
      }
      SortKeepsSortedOrder(tail);
      assert tail == [] || tail[0].start <= edits[0].start;
      assert InsertByStart(edits[0], tail) == [edits[0]] + tail;
      assert edits == [edits[0]] + tail;
    }
  }

  /** The edits starting at `k`, in list order. */
  function KeepStart(es: seq<Edit>, k: nat): seq<Edit>
    decreases |es|
  {
    if es == [] then []
    else (if es[0].start == k then [es[0]] else []) + KeepStart(es[1..], k)
  }

  /** Inserting `e` puts it ahead of every edit with the same start. */
  lemma {:induction false} InsertKeep(e: Edit, s: seq<Edit>, k: nat)
    ensures KeepStart(InsertByStart(e, s), k) == (if e.start == k then [e] else []) + KeepStart(s, k)
    decreases |s|
  {
    if s == [] || s[0].start <= e.start {
      assert ([e] + s)[1..] == s;
    } else {
      InsertKeep(e, s[1..], k);
      var x := [s[0]] + InsertByStart(e, s[1..]);
      assert x[0] == s[0] && x[1..] == InsertByStart(e, s[1..]);
    }
  }

  /** Stability: for every start, the edits with that start come out of the
      sort in the order the caller listed them. */
  lemma {:induction false} SortStable(edits: seq<Edit>, k: nat)
    ensures KeepStart(SortByStartDesc(edits), k) == KeepStart(edits, k)
    decreases |edits|
  {
    if edits != [] {
      SortStable(edits[1..], k);
      InsertKeep(edits[0], SortByStartDesc(edits[1..]), k);
    }
  }

  /** The loop of `apply_span_replacements`: splice the edits in list order. */
  function ApplyInOrder(out: string, es: seq<Edit>): string
    decreases |es|
  {
    if es == [] then out else ApplyInOrder(Splice(out, es[0]), es[1..])
  }

  /** `apply_span_replacements`. No edit leaves the source as it is. */
  function ApplySpanReplacements(source: string, edits: seq<Edit>): (r: string)
    ensures edits == [] ==> r == source
  {
    ApplyInOrder(source, SortByStartDesc(edits))
  }

  // ---------------------------------------------------------------- the caller's side

  /** Every span lies within the source. */
  predicate InBounds(source: string, edits: seq<Edit>) {
    forall e :: e in edits ==> e.start <= e.end <= |source|
  }

  /** Two spans that do not overlap and do not start at the same offset. */
  predicate Separated(a: Edit, b: Edit) {
    (a.end <= b.start && a.start < b.start) || (b.end <= a.start && b.start < a.start)
  }

  predicate PairwiseSeparated(edits: seq<Edit>) {
    forall i, j :: 0 <= i < |edits| && 0 <= j < |edits| && i != j ==> Separated(edits[i], edits[j])
  }

  /** Net change of length made by the edits. */
  function Delta(edits: seq<Edit>): int {
    if edits == [] then 0 else |edits[0].text| - (edits[0].end - edits[0].start) + Delta(edits[1..])
  }

  /** Edits listed left to right within `source`, none starting before `pos`. */
  predicate AscendingFrom(source: string, pos: nat, es: seq<Edit>) {
    && (forall i :: 0 <= i < |es| ==> pos <= es[i].start <= es[i].end <= |source|)
    && (forall i, j :: 0 <= i < j < |es| ==> es[i].end <= es[j].start)
  }

  /** `s[i:j]` when `i <= j <= |s|`, and empty otherwise. */
  function Slice(s: string, i: nat, j: nat): string {
    if i <= j <= |s| then s[i..j] else []
  }

  /** The left-to-right splice: copy the source between edits and put each
      edit's text in place of its span, reading only the original source. */
  function Weave(source: string, pos: nat, es: seq<Edit>): string
    decreases |es|
  {
    if es == [] then Drop(source, pos)
    else Slice(source, pos, es[0].start) + es[0].text + Weave(source, es[0].end, es[1..])
  }

  function Reverse(es: seq<Edit>): (r: seq<Edit>)
    ensures |r| == |es| && forall i :: 0 <= i < |es| ==> r[i] == es[|es| - 1 - i]
  {
    if es == [] then [] else Reverse(es[1..]) + [es[0]]
  }

  lemma {:induction false} ReverseMultiset(es: seq<Edit>)
    ensures multiset(Reverse(es)) == multiset(es)
    decreases |es|
  {
    if es != [] {
      ReverseMultiset(es[1..]);
      assert es == [es[0]] + es[1..];
    }
  }

  // ---------------------------------------------------------------- sorting separated edits

  /** Edits in the order the loop applies them: each one lies wholly before,
      and starts strictly before, every edit listed ahead of it. */
  predicate DescendingChain(source: string, es: seq<Edit>) {
    && (forall i :: 0 <= i < |es| ==> es[i].start <= es[i].end <= |source|)
    && (forall i, j :: 0 <= i < j < |es| ==> es[j].end <= es[i].start && es[j].start < es[i].start)
  }

  lemma ConsSeparated(a: Edit, s: seq<Edit>)
    requires PairwiseSeparated(s)
    requires forall y :: y in s ==> Separated(a, y)
    ensures PairwiseSeparated([a] + s)
  {
    var r := [a] + s;
    forall i, j | 0 <= i < |r| && 0 <= j < |r| && i != j
      ensures Separated(r[i], r[j])
    {
      if i == 0 {
        assert r[j] == s[j - 1] && r[j] in s;
      } else if j == 0 {
        assert r[i] == s[i - 1] && r[i] in s;
      } else {
        assert r[i] == s[i - 1] && r[j] == s[j - 1];
      }
    }
  }

  lemma TailSeparated(s: seq<Edit>)
    requires PairwiseSeparated(s) && s != []
    ensures PairwiseSeparated(s[1..])
    ensures forall y :: y in s[1..] ==> Separated(s[0], y)
  {
    var tail := s[1..];
    forall i, j | 0 <= i < |tail| && 0 <= j < |tail| && i != j
      ensures Separated(tail[i], tail[j])
    {
      assert tail[i] == s[i + 1] && tail[j] == s[j + 1];
    }
    forall y | y in tail
      ensures Separated(s[0], y)
    {
      var k :| 0 <= k < |tail| && tail[k] == y;
      assert s[k + 1] == y;
    }
  }

  lemma {:induction false} InsertKeepsSeparated(e: Edit, s: seq<Edit>)
    requires PairwiseSeparated(s)
    requires forall y :: y in s ==> Separated(e, y)
    ensures PairwiseSeparated(InsertByStart(e, s))
    decreases |s|
  {
    if s == [] || s[0].start <= e.start {
      ConsSeparated(e, s);
    } else {
      var tail := s[1..];
      TailSeparated(s);
      assert forall y :: y in tail ==> y in s;
      InsertKeepsSeparated(e, tail);
      var rest := InsertByStart(e, tail);
      forall x | x in rest
        ensures Separated(s[0], x)
      {
        InsertMember(e, tail, x);
        assert s[0] in s;
      }
      ConsSeparated(s[0], rest);
    }
  }

  lemma {:induction false} SortKeepsSeparated(edits: seq<Edit>)
    requires PairwiseSeparated(edits)
    ensures PairwiseSeparated(SortByStartDesc(edits))
    decreases |edits|
  {
    if edits != [] {
      var rest := edits[1..];
      assert PairwiseSeparated(rest) by {
        forall i, j | 0 <= i < |rest| && 0 <= j < |rest| && i != j
          ensures Separated(rest[i], rest[j])
        {
          assert rest[i] == edits[i + 1] && rest[j] == edits[j + 1];
        }
      }
      SortKeepsSeparated(rest);
      var sorted := SortByStartDesc(rest);
      forall y | y in sorted
        ensures Separated(edits[0], y)
      {
        assert y in multiset(sorted);
        assert y in rest;
        var k :| 0 <= k < |rest| && rest[k] == y;
        assert edits[k + 1] == y;
      }
      InsertKeepsSeparated(edits[0], sorted);
    }
  }

  /** Sorting in-bounds, pairwise separated edits gives the order in which
      each splice lies to the right of all splices still to come. */
  lemma SortedIsChain(source: string, edits: seq<Edit>)
    requires InBounds(source, edits) && PairwiseSeparated(edits)
    ensures DescendingChain(source, SortByStartDesc(edits))
  {
    var d := SortByStartDesc(edits);
    SortKeepsSeparated(edits);
    SortedInBounds(source, edits);
    SeparatedDescending(d);
  }

  lemma SortedInBounds(source: string, edits: seq<Edit>)
    requires InBounds(source, edits)
    ensures var d := SortByStartDesc(edits); forall i :: 0 <= i < |d| ==> d[i].start <= d[i].end <= |source|
  {
    var d := SortByStartDesc(edits);
    forall i | 0 <= i < |d|
      ensures d[i].start <= d[i].end <= |source|
    {
      assert d[i] in multiset(d);
      assert d[i] in edits;
    }
  }

  lemma SeparatedDescending(d: seq<Edit>)
    requires PairwiseSeparated(d) && StartsDescending(d)
    ensures forall i, j :: 0 <= i < j < |d| ==> d[j].end <= d[i].start && d[j].start < d[i].start
  {
    forall i, j | 0 <= i < j < |d|
      ensures d[j].end <= d[i].start && d[j].start < d[i].start
    {
      assert Separated(d[i], d[j]);
    }
  }

  // ---------------------------------------------------------------- right to left equals left to right

  lemma SliceOfPrefix(u: string, p: nat, i: nat, j: nat)
    requires i <= j <= p <= |u|
    ensures Slice(u[..p], i, j) == Slice(u, i, j)
  {
  }

  lemma AscendingTail(source: string, pos: nat, es: seq<Edit>)
    requires AscendingFrom(source, pos, es) && es != []
    ensures AscendingFrom(source, es[0].end, es[1..])
  {
  }

  /** Weaving edits that all end by `p` leaves the text from `p` on as it is. */
  lemma {:induction false} WeavePrefix(u: string, pos: nat, es: seq<Edit>, p: nat)
    requires pos <= p <= |u| && AscendingFrom(u, pos, es)
    requires forall i :: 0 <= i < |es| ==> es[i].end <= p
    ensures Weave(u, pos, es) == Weave(u[..p], pos, es) + u[p..]
    decreases |es|
  {
    if es == [] {
      assert u[pos..] == u[..p][pos..] + u[p..];
    } else {
      var e := es[0];
      AscendingTail(u, pos, es);
      WeavePrefix(u, e.end, es[1..], p);
      SliceOfPrefix(u, p, pos, e.start);
      var w := Weave(u[..p], e.end, es[1..]);
      calc {
        Weave(u, pos, es);
        Slice(u, pos, e.start) + e.text + (w + u[p..]);
        (Slice(u[..p], pos, e.start) + e.text + w) + u[p..];
        Weave(u[..p], pos, es) + u[p..];
      }
    }
  }

  /** Weaving one more edit at the end: the text before it is woven as
      before, then its text, then the source after its span. */
  lemma SnocTail(t: string, pos: nat, es: seq<Edit>, d: Edit)
    requires pos <= d.start <= d.end <= |t| && AscendingFrom(t, pos, es) && es != []
    requires forall i :: 0 <= i < |es| ==> es[i].end <= d.start
    ensures es[0].end <= d.start && AscendingFrom(t, es[0].end, es[1..])
    ensures forall i :: 0 <= i < |es[1..]| ==> es[1..][i].end <= d.start
  {
    AscendingTail(t, pos, es);
  }

  lemma {:induction false} WeaveSnoc(t: string, pos: nat, es: seq<Edit>, d: Edit)
    requires pos <= d.start <= d.end <= |t| && AscendingFrom(t, pos, es)
    requires forall i :: 0 <= i < |es| ==> es[i].end <= d.start
    ensures Weave(t, pos, es + [d]) == Weave(t[..d.start], pos, es) + d.text + t[d.end..]
    decreases |es|
  {
    var x := es + [d];
    if es == [] {
      assert x == [d];
      assert t[..d.start][pos..] == t[pos..d.start];
    } else {
      var e := es[0];
      assert x[0] == e && x[1..] == es[1..] + [d];
      SnocTail(t, pos, es, d);
      WeaveSnoc(t, e.end, es[1..], d);
      SliceOfPrefix(t, d.start, pos, e.start);
      var w := Weave(t[..d.start], e.end, es[1..]);
      calc {
        Weave(t, pos, x);
        Slice(t, pos, e.start) + e.text + Weave(t, e.end, es[1..] + [d]);
        Slice(t, pos, e.start) + e.text + (w + d.text + t[d.end..]);
        (Slice(t[..d.start], pos, e.start) + e.text + w) + d.text + t[d.end..];
        Weave(t[..d.start], pos, es) + d.text + t[d.end..];
      }
    }
  }

  lemma ChainReversed(t: string, es: seq<Edit>)
    requires DescendingChain(t, es)
    ensures AscendingFrom(t, 0, Reverse(es))
  {
  }

  lemma SpliceParts(t: string, d: Edit)
    requires d.start <= d.end <= |t|
    ensures Splice(t, d) == t[..d.start] + d.text + t[d.end..]
    ensures Splice(t, d)[..d.start] == t[..d.start]
    ensures Splice(t, d)[d.start..] == d.text + t[d.end..]
  {
  }

  lemma ChainTail(t: string, es: seq<Edit>)
    requires DescendingChain(t, es) && es != []
    ensures DescendingChain(t, es[1..])
    ensures DescendingChain(Splice(t, es[0]), es[1..])
    ensures forall i :: 0 <= i < |Reverse(es[1..])| ==> Reverse(es[1..])[i].end <= es[0].start
  {
    SpliceParts(t, es[0]);
  }

  /** Weaving into the text after one splice, when every woven edit ends
      before the spliced span, is weaving that edit in last. */
  lemma WeaveAfterSplice(t: string, d: Edit, back: seq<Edit>)
    requires d.start <= d.end <= |t| && AscendingFrom(t, 0, back)
    requires forall i :: 0 <= i < |back| ==> back[i].end <= d.start
    ensures Weave(Splice(t, d), 0, back) == Weave(t, 0, back + [d])
  {
    var u := Splice(t, d);
    SpliceParts(t, d);
    AscendingWithin(t, u, back, d.start);
    WeavePrefix(u, 0, back, d.start);
    WeaveSnoc(t, 0, back, d);
    calc {
      Weave(u, 0, back);
      Weave(u[..d.start], 0, back) + u[d.start..];
      { assert u[..d.start] == t[..d.start]; }
      Weave(t[..d.start], 0, back) + (d.text + t[d.end..]);
      Weave(t, 0, back + [d]);
    }
  }

  /** Edits ascending in one text that end by `p` are ascending in any text
      at least `p` long. */
  lemma AscendingWithin(t: string, u: string, es: seq<Edit>, p: nat)
    requires AscendingFrom(t, 0, es) && p <= |u|
    requires forall i :: 0 <= i < |es| ==> es[i].end <= p
    ensures AscendingFrom(u, 0, es)
  {
  }

  /** Splicing right to left into the text as it is being edited gives the
      same text as weaving the edits, left to right, into the original. */
  lemma {:induction false} ApplyInOrderIsWeave(t: string, es: seq<Edit>)
    requires DescendingChain(t, es)
    ensures ApplyInOrder(t, es) == Weave(t, 0, Reverse(es))
    decreases |es|
  {
    if es != [] {
      var back := Reverse(es[1..]);
      ChainTail(t, es);
      ApplyInOrderIsWeave(Splice(t, es[0]), es[1..]);
      ChainReversed(t, es[1..]);
      WeaveAfterSplice(t, es[0], back);
      assert Reverse(es) == back + [es[0]];
    }
  }

  // ---------------------------------------------------------------- length

  lemma {:induction false} ApplyInOrderLength(t: string, es: seq<Edit>)
    requires DescendingChain(t, es)
    ensures |ApplyInOrder(t, es)| == |t| + Delta(es)
    decreases |es|
  {
    if es != [] {
      var u := Splice(t, es[0]);
      assert DescendingChain(u, es[1..]);
      ApplyInOrderLength(u, es[1..]);
    }
  }

  lemma {:induction false} DeltaInsert(e: Edit, s: seq<Edit>)
    ensures Delta(InsertByStart(e, s)) == |e.text| - (e.end - e.start) + Delta(s)
    decreases |s|
  {
    if !(s == [] || s[0].start <= e.start) {
      DeltaInsert(e, s[1..]);
    }
  }

  lemma {:induction false} DeltaSort(edits: seq<Edit>)
    ensures Delta(SortByStartDesc(edits)) == Delta(edits)
    decreases |edits|
  {
    if edits != [] {
      DeltaSort(edits[1..]);
      DeltaInsert(edits[0], SortByStartDesc(edits[1..]));
    }
  }

  // ---------------------------------------------------------------- uniqueness of the order

  predicate StrictlyDescending(es: seq<Edit>) {
    forall i, j :: 0 <= i < j < |es| ==> es[i].start > es[j].start
  }

  lemma HeadsAgree(a: seq<Edit>, b: seq<Edit>)
    requires StrictlyDescending(a) && StartsDescending(b) && multiset(a) == multiset(b)
    requires a != []
    ensures b != [] && a[0] == b[0]
  {
    assert a[0] in multiset(b);
    var j :| 0 <= j < |b| && b[j] == a[0];
    assert b[0] in multiset(a);
    var i :| 0 <= i < |a| && a[i] == b[0];
    assert b[0].start >= b[j].start;
    assert i == 0;
  }

  lemma MultisetTail(a: seq<Edit>, b: seq<Edit>)
    requires a != [] && b != [] && a[0] == b[0] && multiset(a) == multiset(b)
    ensures multiset(a[1..]) == multiset(b[1..])
  {
    assert a == [a[0]] + a[1..];
    assert b == [b[0]] + b[1..];
    assert multiset(a[1..]) == multiset(a) - multiset{a[0]};
    assert multiset(b[1..]) == multiset(b) - multiset{a[0]};
  }

  /** A list with strictly descending starts is the only list on descending
      starts holding the same edits. */
  lemma {:induction false} DescendingUnique(a: seq<Edit>, b: seq<Edit>)
    requires StrictlyDescending(a) && StartsDescending(b) && multiset(a) == multiset(b)
    ensures a == b
    decreases |a|
  {
    if a == [] {
      assert |multiset(b)| == 0;
    } else {
      HeadsAgree(a, b);
      MultisetTail(a, b);
      DescendingUnique(a[1..], b[1..]);
      assert a == [a[0]] + a[1..] && b == [b[0]] + b[1..];
    }
  }

  // ---------------------------------------------------------------- properties

  /** The result's length is the source's plus each edit's change of length. */
  lemma ApplyLength(source: string, edits: seq<Edit>)
    requires InBounds(source, edits) && PairwiseSeparated(edits)
    ensures |ApplySpanReplacements(source, edits)| == |source| + Delta(edits)
  {
    SortedIsChain(source, edits);
    ApplyInOrderLength(source, SortByStartDesc(edits));
    DeltaSort(edits);
  }

  /** Applying in-bounds, pairwise separated edits is the left-to-right splice
      of the same edits into the original source. */
  lemma ApplyIsLeftToRightSplice(source: string, edits: seq<Edit>)
    requires InBounds(source, edits) && PairwiseSeparated(edits)
    ensures var order := Reverse(SortByStartDesc(edits));
      && multiset(order) == multiset(edits)
      && AscendingFrom(source, 0, order)
      && ApplySpanReplacements(source, edits) == Weave(source, 0, order)
  {
    SortedIsChain(source, edits);
    ApplyInOrderIsWeave(source, SortByStartDesc(edits));
    ChainReversed(source, SortByStartDesc(edits));
    ReverseMultiset(SortByStartDesc(edits));
  }

  /** For in-bounds, pairwise separated edits the result does not depend on
      the order in which the caller lists them. */
  lemma OrderIndependent(source: string, edits: seq<Edit>, reordered: seq<Edit>)
    requires InBounds(source, edits) && PairwiseSeparated(edits)
    requires multiset(reordered) == multiset(edits)
    ensures ApplySpanReplacements(source, reordered) == ApplySpanReplacements(source, edits)
  {
    SortedIsChain(source, edits);
    DescendingUnique(SortByStartDesc(edits), SortByStartDesc(reordered));
  }

  lemma ReverseTwice(es: seq<Edit>)
    ensures Reverse(Reverse(es)) == es
  {
    assert forall i :: 0 <= i < |es| ==> Reverse(Reverse(es))[i] == es[i];
  }

  lemma AscendingReversed(source: string, es: seq<Edit>)
    requires AscendingFrom(source, 0, es)
    requires forall i, j :: 0 <= i < j < |es| ==> es[i].start < es[j].start
    ensures DescendingChain(source, Reverse(es)) && StrictlyDescending(Reverse(es))
  {
  }

  /** Edits already listed left to right, with strictly increasing starts, are
      woven in exactly that order. */
  lemma AscendingEditsWoven(source: string, es: seq<Edit>)
    requires AscendingFrom(source, 0, es)
    requires forall i, j :: 0 <= i < j < |es| ==> es[i].start < es[j].start
    ensures ApplySpanReplacements(source, es) == Weave(source, 0, es)
  {
    var back := Reverse(es);
    ReverseMultiset(es);
    AscendingReversed(source, es);
    DescendingUnique(back, SortByStartDesc(es));
    ApplyInOrderIsWeave(source, back);
    ReverseTwice(es);
  }
}

=== FILE: text.dfy ===
/** Character classes and maximal-run scanners shared by the statement locator
    and the filter injector. `\w`, `\s` and case-insensitive comparison are
    read in their ASCII sense throughout. */
module Text {
  import opened Wrappers

  /** `\w`: ASCII letters, digits and underscore. */
  predicate IsWordChar(c: char) {
    ('a' <= c <= 'z') || ('A' <= c <= 'Z') || ('0' <= c <= '9') || c == '_'
  }

  /** `\s` in its ASCII sense: blank, tab, line feed, carriage return,
      vertical tab and form feed. Python's default `\s` also matches the
      separators `\x1c`-`\x1f`, `\x85`, `\xa0` and other Unicode blanks;
      here those are ordinary characters. */
  predicate IsSpace(c: char) {
    c == ' ' || c == '\t' || c == '\n' || c == '\r' || c == '\U{B}' || c == '\U{C}'
  }

  /** ASCII upper case of one character; any other character is its own upper case. */
  function Upper(c: char): char {
    if 'a' <= c <= 'z' then (c as int - 32) as char else c
  }

  /** `str.upper()` restricted to ASCII. */
  function UpperString(s: string): (u: string)
    ensures |u| == |s|
    ensures forall i :: 0 <= i < |s| ==> u[i] == Upper(s[i])
  {
    if s == [] then [] else [Upper(s[0])] + UpperString(s[1..])
  }

  /** The upper-case keyword `kw` occurs at `i`, compared case-insensitively. */
  predicate KeywordAt(s: string, i: nat, kw: string) {
    i + |kw| <= |s| && forall k :: 0 <= k < |kw| ==> Upper(s[i + k]) == kw[k]
  }

  /** `s[i..j]` is a non-empty run of blanks (`\s+`). */
  predicate SpaceRun(s: string, i: nat, j: nat) {
    i < j <= |s| && forall k :: i <= k < j ==> IsSpace(s[k])
  }

  /** `s[i..j]` is a non-empty run of word characters (`\w+`). */
  predicate WordRun(s: string, i: nat, j: nat) {
    i < j <= |s| && forall k :: i <= k < j ==> IsWordChar(s[k])
  }

  /** End of the longest run of blanks starting at `i`. */
  function SkipSpaces(s: string, i: nat): (j: nat)
    requires i <= |s|
    ensures i <= j <= |s|
    ensures forall k :: i <= k < j ==> IsSpace(s[k])
    ensures j < |s| ==> !IsSpace(s[j])
    decreases |s| - i
  {
    if i < |s| && IsSpace(s[i]) then SkipSpaces(s, i + 1) else i
  }

  /** End of the longest run of word characters starting at `i`. */
  function SkipWord(s: string, i: nat): (j: nat)
    requires i <= |s|
    ensures i <= j <= |s|
    ensures forall k :: i <= k < j ==> IsWordChar(s[k])
    ensures j < |s| ==> !IsWordChar(s[j])
    decreases |s| - i
  {
    if i < |s| && IsWordChar(s[i]) then SkipWord(s, i + 1) else i
  }

  /** The first position at or after `i` holding the character `c`. */
  function FirstIndexOf(s: string, i: nat, c: char): (r: Option<nat>)
    requires i <= |s|
    ensures r.None? ==> forall k :: i <= k < |s| ==> s[k] != c
    ensures r.Some? ==> i <= r.value < |s| && s[r.value] == c
    ensures r.Some? ==> forall k :: i <= k < r.value ==> s[k] != c
    decreases |s| - i
  {
    if i == |s| then None
    else if s[i] == c then Some(i)
    else FirstIndexOf(s, i + 1, c)
  }

  /** A blank run followed by a character that is not a blank is the longest one. */
  lemma SpaceRunIsLongest(s: string, i: nat, j: nat)
    requires SpaceRun(s, i, j) && j < |s| && !IsSpace(s[j])
    ensures SkipSpaces(s, i) == j
  {
  }

  /** Any word run starting at `i` ends within the longest one. */
  lemma WordRunWithinLongest(s: string, i: nat, j: nat)
    requires WordRun(s, i, j)
    ensures j <= SkipWord(s, i)
  {
  }

  /** A keyword starting with a letter cannot start on a blank. */
  lemma KeywordNotOnSpace(s: string, i: nat, kw: string)
    requires KeywordAt(s, i, kw) && |kw| > 0 && 'A' <= kw[0] <= 'Z'
    ensures i < |s| && !IsSpace(s[i]) && IsWordChar(s[i])
  {
    assert Upper(s[i + 0]) == kw[0];
  }
}

=== FILE: wrappers.dfy ===
/** The optional value used wherever the source returns `None` or a value. */
module Wrappers {

  datatype Option<+T> = None | Some(value: T)
}
